=== FILE: README.md ===
# GGJ2015 game logic in Dafny

A model of the rules of GGJ2015, a turn-based dungeon crawler. Every room offers up to four
choices. The player can fight a creature, collect a set of item drops, pick up a single drop,
or move forward to the next room. A timer runs down in every room. The game ends when the timer
runs out or the player's hit points reach zero.

The model covers all of the game logic in `include/GGJ2015/main.cpp`:

- **Stats** (`stats.dfy`): weapons, armour and creatures, the element sets, and the C++
  conversions spelled out. Float-to-`int` casts round toward zero (`TruncDiv`).
- **Combat** (`combat.dfy`): the damage calculation of `Calculations`, and the creature's
  `attackOnce`, `fight` and `canDamage`.
  - `Fight` is a terminating function whose precondition is the `canDamage` guard every caller
    checks.
  - `FightWinner` predicts the winner from blow counts alone.
- **Effects** (`effects.dfy`): instant effects on HPS, ATK and DEF, and the burn applied to
  negative bonuses.
- **Drops** (`drops.dfy`): weapon, armour and effect drops, and the three-slot `ItemDrops` with
  `has` and `give`.
- **Draws and names** (`draws.dfy`, `names.dfy`):
  - Random draws are an explicit sequence of integers, and `std::shuffle` is Fisher–Yates over
    it.
  - Also here: the weighted pick `getR`, the halving chance loop `whileChance`, and the creature
    name generator.
- **Generators** (`generators.dfy`): elements, stat rolls, weapons, armour, creatures, instant
  effects and drops.
- **Session** (`session.dfy`):
  - the four choice slots and their double buffer (`nextChoices`, installed by
    `refreshChoices`);
  - the drop sub-mode;
  - `sustain`, `advance`, `restart` and the `execute` of each kind of choice.
- **App** (`app.dfy`): `executeChoice` for the four keys, the Escape key, and the timer and
  death check of `update`.

Two quantities are scaled to whole numbers:

- The session's `float` difficulty is an integer in thousandths: 1.0 is 1000, and the
  increments 0.038 and 0.087 are 38 and 87.
- The timer is in frames at 60 per second: 10 seconds is 600 frames, and Hardcore's 6 seconds is
  360.

Four behaviours of the code are easy to misread; the model follows the code:

- `generateRndElements` keeps rolling tier dice after a failed die. Only the scaled-level
  thresholds 20, 30 and 40 stop it. It also checks the session's room number, not the level it
  is given.
- `generateDrops` starts its refill loop at slot 0, so slot 0 can be re-rolled. A filled slot is
  never emptied.
- The multiple-drop choice generates its drops in its constructor and again in
  `generateChoiceMultipleDrop`. The first set is discarded, but its draws are consumed.
- `generateChoices` offers 2 choices, or 3 after room 10. Its "4 after room 20" branch comes
  after the room-10 test and is never taken. `Session.ChoiceCount` states the counts that
  actually occur.

## Model

| member | source | states |
|---|---|---|
| Stats.TruncDiv | include/GGJ2015/main.cpp:178-202 | Division rounds toward zero for every positive divisor: the remainder `a - q*b` lies in `[0, b)` for a non-negative numerator and in `(-b, 0]` for a negative one |
| Combat.WeaponDamage | include/GGJ2015/main.cpp:178-202 | Damage is never negative; it is 0 when attack plus bonus does not exceed defence plus bonus; otherwise it is the raw damage scaled by 2.5 when strong and then by 0.8 when weak, each step truncated. Strong is `isWeaponStrongAgainst` and weak is `isWeaponWeakAgainst` (main.cpp:180-188): the weapon's strong or weak elements meet the armour's elements |
| Combat.CanWeaponDamage | include/GGJ2015/main.cpp:198-201 | A weapon can damage an armour exactly when the raw damage reaches 1, or 2 when only the 0.8 malus applies |
| Combat.CanDamage | include/GGJ2015/main.cpp:243-246 | `canDamage` holds exactly when one blow deals positive damage, and exactly when the raw damage reaches the threshold the multipliers allow |
| Combat.HurtThreshold | include/GGJ2015/main.cpp:178-202 | A positive raw damage still hurts after the multipliers exactly from 1 up, or from 2 up when only the 0.8 malus applies |
| Combat.StrongAndWeakCompose | include/GGJ2015/main.cpp:178-202 | When the weapon is both strong and weak against the armour, a positive raw damage is doubled and then loses one point when it is odd |
| Combat.ScaledMonotone | include/GGJ2015/main.cpp:178-202 | The multipliers never reverse the order of two raw damages |
| Combat.DamageMonotone | include/GGJ2015/main.cpp:178-202 | More attack bonus, or less defence bonus, never lowers the damage |
| Combat.AttackOnce | include/GGJ2015/main.cpp:214-218 | The defender loses exactly the attacker's damage; its name, gear and bonuses are unchanged |
| Combat.Fight | include/GGJ2015/main.cpp:222-241 | The attacker strikes at least once and the defender strikes back at most as often. The defender dies when the attacker struck last, and the attacker dies otherwise. Both creatures' hit points equal their starting hit points minus their blows' damage. Before the last blow both stood. With a living attacker, exactly one of them is dead. Dead is `isDead` (main.cpp:248): hit points at or below 0 |
| Combat.FightWinner | include/GGJ2015/main.cpp:222-241 | A living attacker wins exactly when the defender cannot hurt it, or when felling the defender takes no more blows than felling the attacker |
| Combat.FireScenario | include/GGJ2015/main.cpp:178-202 | Attack 15, strong against Fire, against Fire and Earth armour with defence 2 deals 32 |
| Effects.ApplyToStat | include/GGJ2015/main.cpp:1330-1350 | Only the targeted stat changes, combined with the effect's value by add, subtract, multiply or truncating divide |
| Effects.AddThenSubRestores | include/GGJ2015/main.cpp:1330-1350 | Subtracting a value from a stat after adding it gives back the same creature |
| Effects.CheckBurns | include/GGJ2015/main.cpp:1356-1378 | Negative bonuses are reset to 0 and nothing else about the gear changes; with no negative bonus nothing changes at all; a positive debt costs `debt * 5 * room * difficulty` hit points, truncated toward zero |
| Effects.CheckBurnsIdempotent | include/GGJ2015/main.cpp:1356-1378 | A second burn check finds nothing left to burn |
| Effects.BurnAtUnitDifficulty | include/GGJ2015/main.cpp:1356-1378 | At difficulty 1 the burn costs exactly `debt * 5 * room` hit points |
| Effects.BurnNeverHeals | include/GGJ2015/main.cpp:1356-1378 | With a non-negative room and difficulty a burn never raises hit points |
| Effects.ApplyEffect | include/GGJ2015/main.cpp:1330-1354 | An instant effect never touches the gear and never leaves a bonus negative; an ATK or DEF effect sets that bonus to the clamped combination. Every bonus it does not target is kept, or cleared to 0 if it was negative. When the effect leaves no negative bonus, the creature is exactly the effect applied to its stat |
| Drops.ApplyEffects | include/GGJ2015/main.cpp:701-705 | An effect drop never touches the gear, a non-empty list leaves no negative bonus, and an empty one changes nothing |
| Drops.ApplyEffectsSingle | include/GGJ2015/main.cpp:701-705 | A one-effect list applies exactly that instant effect, burn check included |
| Drops.ApplyEffectsSnoc | include/GGJ2015/main.cpp:701-705 | Applying a list and then one more effect is that effect applied to the list's result, so the drop applies its effects one at a time, in order |
| Drops.ApplyEffectsAppend | include/GGJ2015/main.cpp:701-705 | Applying two effect lists one after the other equals applying their concatenation |
| Drops.ApplyDrop | include/GGJ2015/main.cpp:617-705 | A weapon drop replaces only the weapon, an armour drop only the armour, and an effect drop applies its effects and never changes either |
| Drops.EquipmentDropsCommute | include/GGJ2015/main.cpp:617-678 | Picking up a weapon drop and an armour drop gives the same creature in either order |
| Drops.Give | include/GGJ2015/main.cpp:734-744 | `give` empties the given slot, keeps the other two, and applies the drop that was there |
| Drops.TryPickup | include/GGJ2015/main.cpp:912-917 | Picking up from an empty slot changes nothing; from a full slot it is `give`; either way the slot ends empty. A slot is full when `has` (main.cpp:734-738) finds a drop there |
| Drops.PickupAtMostOnce | include/GGJ2015/main.cpp:912-917 | Picking up the same slot twice has the effect of picking it up once |
| Draws.Shuffle | include/GGJ2015/main.cpp:1170-1171 | A shuffle is a permutation of its input, so distinct values stay distinct |
| Draws.ShuffledMembers | include/GGJ2015/main.cpp:1170-1171 | Every position of a shuffle holds one of the shuffled values |
| Names.Scan | include/GGJ2015/main.cpp:352-366 | The scan of `getR` returns the first candidate whose weight interval holds the draw; it finds none only for a draw at or beyond the total weight |
| Names.WeightedIndex | include/GGJ2015/main.cpp:352-366 | A draw below the total weight selects the candidate whose cumulative weight interval contains it |
| Names.ScanAlwaysFinds | include/GGJ2015/main.cpp:352-366 | For a draw below the total weight the scan always finds a candidate, so the uniform fallback after it is never reached |
| Names.Pick | include/GGJ2015/main.cpp:352-366 | `getR` returns one of the table's texts, the one whose weight interval holds the first draw modulo the total weight, and consumes that draw |
| Names.NameTablesWeighted | include/GGJ2015/main.cpp:314-350 | The creature-name and creature-modifier tables both weigh 8.3 in total |
| Names.CreatureChanceSettles | include/GGJ2015/main.cpp:368-376 | From the creature-name start of 25 the chance goes 25, 12, 6, 3, and then stays at 2 |
| Names.ModifierChain | include/GGJ2015/main.cpp:368-376 | Every modifier chosen comes from the modifier table; a chance below 100 stops within the draws available. A first die at or above the chance adds no modifier and consumes one draw; a die below it adds at least one |
| Names.CreatureName | include/GGJ2015/main.cpp:384-392 | A creature's name is zero or more table modifiers, each followed by a space, and then a name from the creature table |
| Generators.StatBaseAtLeastFour | include/GGJ2015/main.cpp:967-973 | From level 0 and difficulty 1, the base of a stat roll is at least 4, so the roll's range is never empty |
| Generators.TierHits | include/GGJ2015/main.cpp:955-965 | One tier die is rolled per tier the scaled level reaches (1 to 4). The count of successes is the number of those draws that fall below 50, 45, 40 and 35 out of 100, and exactly that many draws are consumed |
| Generators.GenerateElements | include/GGJ2015/main.cpp:945-965 | Before room 10 nothing changes and nothing is drawn. From room 10 the element indices are shuffled with three draws. The successful tier dice are counted on the following draws. The result is the input plus the first that-many shuffled indices, so bits are only ever added, at most one per success, and on an empty set exactly one per success |
| Generators.ShuffleIndices | include/GGJ2015/main.cpp:952-953 | The shuffled element indices are all four, each once |
| Generators.GetRndStat | include/GGJ2015/main.cpp:967-973 | A stat roll lies in `[0.65 d, 1.55 d)` with each bound truncated, and is never negative |
| Generators.GenerateWeapon | include/GGJ2015/main.cpp:1100-1113 | A weapon gets the placeholder name with its scaled level and an attack of a stat roll plus one; before room 10 it has no elements; each element set has at most one element per tier |
| Generators.GenerateArmor | include/GGJ2015/main.cpp:1115-1126 | Armour defence is a stat roll times 0.7, truncated, so it is at least 0.7 of the roll's lower bound and below 0.7 of its upper bound; before room 10 it has no elements |
| Generators.GenerateCreature | include/GGJ2015/main.cpp:1128-1140 | A creature has hit points in `[5 d, 8 d)` for its scaled level `d`, a positive attack, no bonuses, and before room 10 no elements |
| Generators.GenerateInstantEffect | include/GGJ2015/main.cpp:975-1007 | The effect has the requested kind and stat; a magnitude on ATK or DEF is at least 1 and at least `level/8`, and at most `level/8 + 2 + level/12`; one on HPS is between 8 and 12 times the level |
| Generators.AddIEs | include/GGJ2015/main.cpp:1009-1029 | `addIEs` appends exactly an Add effect and a Sub effect on two different stats and keeps what was there |
| Generators.GenerateDropIE | include/GGJ2015/main.cpp:1032-1046 | An effect drop holds one or two Add/Sub pairs; at level 0 or below it always holds one |
| Generators.DropLevelFromZero | include/GGJ2015/main.cpp:967-1007 | From level 0 and difficulty 1, every drop generator's draw ranges are non-empty |
| Generators.GenerateRndDrop | include/GGJ2015/main.cpp:1066-1079 | Every random drop is a generated drop that can be applied; before room 10 its equipment has no elements. A first die above 21 (of 50) gives an effect drop. Otherwise the drop is equipment, and it is a weapon exactly when the second die is above 19 |
| Generators.GenerateDrops | include/GGJ2015/main.cpp:1081-1098 | Slot 0 of generated item drops is always filled, and every filled slot holds a generated drop |
| Session.Initial | include/GGJ2015/main.cpp:825-910 | A new session is in the menu at room 0 and difficulty 1, with no choices and no open drops, and satisfies the session invariant |
| Session.GotoMenu | include/GGJ2015/main.cpp:895-905 | Going to the menu changes only the state, and keeps the session invariant |
| Session.Die | include/GGJ2015/main.cpp:1245-1252 | Dying changes only the state, and keeps the session invariant |
| Session.StartDrops | include/GGJ2015/main.cpp:919-922 | Opening the drops of an item-drop choice changes nothing else and keeps the session invariant |
| Session.EndDrops | include/GGJ2015/main.cpp:923-926 | Closing the drops changes nothing else; followed by a refresh it keeps the session invariant |
| Session.ResetTimer | include/GGJ2015/main.cpp:939-943 | The timer is set to a full room's time for the mode, which is positive, and nothing else changes |
| Session.RefreshChoices | include/GGJ2015/main.cpp:929-937 | Every slot with a pending replacement shows it, every other slot keeps its choice, nothing is left pending, and nothing else changes |
| Session.ResetChoiceAt | include/GGJ2015/main.cpp:1204-1207 | Queuing a replacement leaves the shown choices as they are and the other pending slots as they were |
| Session.RefreshIdempotent | include/GGJ2015/main.cpp:929-937 | A refresh with nothing pending changes nothing, so a second refresh never changes anything |
| Session.ResetThenRefresh | include/GGJ2015/main.cpp:929-937 | A queued choice is not shown until the refresh, which shows it in its own slot and leaves the other slots as they were |
| Session.RefreshRestoresValid | include/GGJ2015/main.cpp:929-937 | Refreshing with no drops open restores the session invariant: nothing is left pending |
| Session.SustainHeal | include/GGJ2015/main.cpp:850-859 | The drained hit points are between 1 and 20 |
| Session.SustainHealBounds | include/GGJ2015/main.cpp:850-859 | The drain grows with the room, and at difficulty 1 it is one and a half per room plus one, capped at 20 |
| Session.Sustain | include/GGJ2015/main.cpp:850-859 | A dead player (`isDead`, main.cpp:248: hit points at or below 0) gains nothing; a living one gains the drain and stays alive; nothing else in the session changes |
| Session.ChoiceCount | include/GGJ2015/main.cpp:1165-1168 | A room offers 2 choices, or 3 after room 10 |
| Session.CreatureLevelPositive | include/GGJ2015/main.cpp:1142-1147 | From room 0 and difficulty 1, a room's creature has a level of at least 1 |
| Session.GenerateChoice | include/GGJ2015/main.cpp:1142-1195 | A first die above 15 (of 100) gives a creature. Otherwise the choice is a drop, and it is a single drop exactly when the second die is above 20. A generated choice is never an advance. A creature has at least 5 hit points, a positive attack and no bonuses. Item drops have slot 0 filled. A single drop is present. Every stored drop can be applied |
| Session.ShuffleSlots | include/GGJ2015/main.cpp:1170-1171 | The shuffled slot indices are four distinct slots |
| Session.GenerateChoices | include/GGJ2015/main.cpp:1163-1195 | Exactly `ChoiceCount(room)` distinct slots are filled, each with a generated choice |
| Session.Advance | include/GGJ2015/main.cpp:1209-1243 | The room number goes up by one. Every fifth room raises the difficulty by the increment. The timer is full again, no drops are open, and the new choices fill exactly `ChoiceCount` slots. The player, the mode and the state are unchanged |
| Session.Restart | include/GGJ2015/main.cpp:861-893 | A restarted session is playing room 1 in the same mode with the starting player, difficulty 1, the mode's increment, timer switch and full timer, and two choices |
| Session.TryPickupDrop | include/GGJ2015/main.cpp:912-917 | Picking up from the open drops empties that slot and keeps the other two. It applies the drop if there was one and changes nothing otherwise. The other choices and the invariant are kept |
| Session.PickupDropOnce | include/GGJ2015/main.cpp:912-917 | Picking up the same open drop twice has the effect of picking it up once |
| Session.FightAt | include/GGJ2015/main.cpp:1301-1320 | After a fight, the player is the fight's attacker after sustain, and the fought creature stays shown. The slot queues item drops with slot 0 filled, and no other slot is touched |
| Session.Execute | include/GGJ2015/main.cpp:1255-1320 | Per kind of choice: forward advances a room, refills the timer and raises the difficulty on every fifth room; a creature the player cannot damage is refused with nothing changed; collect opens the slot's drops and queues forward; a present single drop is applied and queues forward, an absent one does nothing |
| App.Resolve | include/GGJ2015/main.cpp:1496-1504 | Executing a choice and then refreshing unless drops were opened: forward leaves the player, refills the timer, raises the difficulty on every fifth room and fills `ChoiceCount` slots; a fight keeps the room, difficulty and timer and shows item drops in the slot; a single drop is applied and replaced by forward; collect opens the drops |
| App.ExecuteChoice | include/GGJ2015/main.cpp:1458-1517 | In the menu, keys 1-3 start Normal, Practice or Hardcore. When dead, key 1 goes to the menu and the others restart. While playing, an empty slot does nothing and a full one is resolved. With drops open, key 1 closes them and refreshes, and keys 2-4 pick up drops 0-2. The session invariant is kept |
| App.Escape | include/GGJ2015/main.cpp:1443 | Escape leads to the menu from any state, and changes nothing else |
| App.Tick | include/GGJ2015/main.cpp:1519-1548 | Outside play nothing changes. While playing, an enabled timer runs down by the elapsed frames. The session dies exactly when the timer is spent or the player is dead, and never returns to the menu |
| App.TickComposes | include/GGJ2015/main.cpp:1519-1548 | Two updates reach the same state as one update of their combined time |
| App.TimerRunsOut | include/GGJ2015/main.cpp:1519-1548 | With the timer enabled, a playing session dies once its remaining frames have elapsed |
| App.PracticeNeverTimesOut | include/GGJ2015/main.cpp:1519-1548 | With the timer off, a living player with time left is never killed by an update |

## Left out

- Rendering, sprites, sounds, music, the camera, screen shake, the death-text fade and the event
  log are left out. They do not affect the game's state.
- `gameWindow->stop()` on the fourth menu key is left out because it closes the window. In the
  model that key leaves the session unchanged.
- The window and input framework and the `ssvu`/`ssvs` libraries are not part of this model.
  - Their random engine is replaced by the explicit draw sequence, with `getRnd(lo, hi)` read as
    `lo + draw mod (hi - lo)`.
  - An exhausted sequence reads as the top of the range. That is a modelling convention, not a
    behaviour of the game.
- `getSecondsToFT` is taken as 60 frames per second. The float frame time of `update` is a whole
  number of frames.
- Floating point is not modelled; these are exact decimals instead:
  - the difficulty in thousandths;
  - the multipliers 2.5, 0.8, 0.65, 1.55, 0.7 and 0.69.

  Float rounding of these products is therefore not modelled.
- An instant effect's magnitude (`InstantEffect::value`, a `float` in the game) is an integer
  here. Every generator produces a whole-number magnitude, so no fraction is lost.
- 32-bit `int` overflow is not modelled. Integers are unbounded.
- The hover angle a creature choice draws in its constructor only feeds drawing. Its draw is
  consumed, but its value is not kept.
- The weapon-name and item-modifier tables are left out because no generator in the game logic
  uses them. Equipment gets the placeholder name "Generated name TODO (lvl: d)".
- The session's timer is left uninitialised by the constructor. In `Session.Initial` it is 0;
  every path into play sets it.
- Memory ownership of the choice pointers is left out.
  - `release` leaks the choice rather than deleting it.
  - The executing choice is released by `advance` while it runs.
  - In the model choices are values, so neither has an observable effect.
- Generators.GenerateInstantEffect states the HPS magnitude only for a non-negative level. Every
  level the game passes is non-negative.
- Generators.GenerateElements returns the shuffled order and states that it is a permutation of
  the four indices. It does not state which permutation the three shuffle draws produce, because
  stating `std::shuffle`'s result on the fixed index list is too expensive to prove.
- Generators.TierHits and Generators.GenerateElements state the count of successful dice only when
  enough draws remain. With fewer draws the exhausted-sequence convention applies.
- Drops.ApplyDrop, Drops.ApplyEffects and Effects.ApplyEffect do not state the HPS change of an
  effect in closed form when a bonus is negative. It is the burn that `Effects.CheckBurns`
  states.
- App.TickComposes states only that the resulting state is the same. The timer values agree
  only while the timer is enabled and the session stays playing.

=== FILE: app.dfy ===
/**
 * `GameApp`: the four choice keys, the Escape key and the per-frame timer
 * update (include/GGJ2015/main.cpp:1443-1548).
 */
module App {
  import opened Wrappers
  import opened Stats
  import opened Combat
  import opened Drops
  import opened Session

  /** The mode each menu entry starts. */
  function MenuMode(slot: nat): Mode
    requires slot < 3
  {
    if slot == 0 then Normal else if slot == 1 then Practice else Hardcore
  }

  /**
   * The outcome, once the buffer is refreshed, of resolving the choice in
   * `slot` while no drops are open.
   */
  predicate Played(s: GameSession, slot: nat, r: GameSession)
    requires Valid(s) && slot < MaxChoices && s.choices[slot].Some?
  {
    match s.choices[slot].value
    case AdvanceChoice =>
      && r.roomNumber == s.roomNumber + 1 && r.player == s.player && r.currentDrops.None?
      && |Filled(r.choices)| == ChoiceCount(r.roomNumber)
      && r.timer == TimerFrames(s.mode)
      && r.difficulty == s.difficulty + (if r.roomNumber % 5 == 0 then s.difficultyInc else 0)
    case CreatureChoice(c) =>
      if !CanDamage(s.player, c) then r == s
      else
        && r.player == Sustain(s.(player := Fight(s.player, c).attacker)).player
        && r.roomNumber == s.roomNumber && r.difficulty == s.difficulty && r.timer == s.timer
        && r.currentDrops.None?
        && r.choices[slot].Some? && r.choices[slot].value.ItemDropChoice? && Has(r.choices[slot].value.drops, 0)
        && (forall i :: 0 <= i < MaxChoices && i != slot ==> r.choices[i] == s.choices[i])
    case ItemDropChoice(_) =>
      r == ResetChoiceAt(StartDrops(s, slot), slot, AdvanceChoice)
    case SingleDropChoice(d) =>
      if d.None? then r == s
      else r == s.(player := ApplyDrop(d.value, s.player, s.roomNumber, s.difficulty),
                   choices := s.choices[slot := Some(AdvanceChoice)])
  }

  /**
   * The playing branch of `executeChoice` with no drops open: the slot's
   * choice is executed, then the buffer is refreshed unless drops were
   * opened.
   */
  method Resolve(s: GameSession, slot: nat, rng: seq<int>) returns (r: GameSession, rest: seq<int>)
    requires Valid(s) && s.state == Playing && s.currentDrops.None? && slot < MaxChoices && s.choices[slot].Some?
    ensures Valid(r) && |rest| <= |rng|
    ensures r.state == Playing && r.mode == s.mode
    ensures Played(s, slot, r)
  {
    var x;
    x, rest := Execute(s, slot, rng);
    if x.currentDrops.None? {
      RefreshRestoresValid(x);
      r := RefreshChoices(x);
      RefreshIdempotent(x);
      if s.choices[slot].value.SingleDropChoice? && s.choices[slot].value.drop.Some? {
        ResetThenRefresh(s.(player := ApplyDrop(s.choices[slot].value.drop.value, s.player, s.roomNumber, s.difficulty)),
                         slot, AdvanceChoice);
      }
    } else {
      r := x;
    }
  }

  /**
   * `executeChoice`: in the menu the first three keys start a game in
   * Normal, Practice or Hardcore mode (the fourth closes the window); when
   * dead the first key returns to the menu and the others restart; while
   * playing with no drops open the slot's choice is resolved and the buffer
   * refreshed unless drops were opened; with drops open the first key
   * closes them and the others pick up drop 0, 1 or 2.
   */
  method ExecuteChoice(s: GameSession, slot: nat, rng: seq<int>) returns (r: GameSession, rest: seq<int>)
    requires Valid(s) && slot < MaxChoices
    ensures Valid(r) && |rest| <= |rng|
    ensures s.state == Menu && slot < 3 ==> Started(r, MenuMode(slot))
    ensures s.state == Menu && slot == 3 ==> r == s
    ensures s.state == Dead && slot == 0 ==> r == GotoMenu(s)
    ensures s.state == Dead && slot != 0 ==> Started(r, s.mode)
    ensures s.state == Playing ==> r.state == Playing && r.mode == s.mode
    ensures s.state == Playing && s.currentDrops.None? && s.choices[slot].None? ==> r == s
    ensures s.state == Playing && s.currentDrops.None? && s.choices[slot].Some? ==> Played(s, slot, r)
    ensures s.state == Playing && s.currentDrops.Some? && slot == 0 ==> r == RefreshChoices(EndDrops(s))
    ensures s.state == Playing && s.currentDrops.Some? && slot > 0 ==> r == TryPickupDrop(s, slot - 1)
  {
    if s.state == Menu {
      if slot < 3 {
        r, rest := Restart(s.(mode := MenuMode(slot)), rng);
      } else {
        r, rest := s, rng;
      }
    } else if s.state == Dead {
      if slot == 0 {
        r, rest := GotoMenu(s), rng;
      } else {
        r, rest := Restart(s, rng);
      }
    } else if s.currentDrops.None? {
      if s.choices[slot].None? {
        r, rest := s, rng;
      } else {
        r, rest := Resolve(s, slot, rng);
      }
    } else {
      if slot == 0 {
        RefreshRestoresValid(EndDrops(s));
        r, rest := RefreshChoices(EndDrops(s)), rng;
      } else {
        r, rest := TryPickupDrop(s, slot - 1), rng;
      }
    }
  }

  /** The Escape key: back to the menu from anywhere else; nothing else changes. */
  function Escape(s: GameSession): (r: GameSession)
    ensures r.state == Menu
    ensures r == s.(state := Menu)
    ensures Valid(s) ==> Valid(r)
  {
    if s.state != Menu then GotoMenu(s) else s
  }

  /**
   * `update` for `elapsed` frames: while playing, the timer runs down if it
   * is enabled, and the session dies once the timer is spent or the player
   * is dead. Outside play nothing changes.
   */
  function Tick(s: GameSession, elapsed: int): (r: GameSession)
    ensures s.state != Playing ==> r == s
    ensures s.state == Playing ==> r.timer == (if s.timerEnabled then s.timer - elapsed else s.timer)
    ensures s.state == Playing ==> (r.state == Dead <==> r.timer <= 0 || IsDead(s.player))
    ensures s.state == Playing ==> r.state != Menu
    ensures r == s.(timer := r.timer, state := r.state)
    ensures Valid(s) ==> Valid(r)
  {
    if s.state != Playing then s
    else
      var ticked := s.(timer := if s.timerEnabled then s.timer - elapsed else s.timer);
      if ticked.timer <= 0 || IsDead(ticked.player) then Die(ticked) else ticked
  }

  /** Splitting the elapsed frames over two updates reaches the same state. */
  lemma TickComposes(s: GameSession, a: int, b: int)
    requires a >= 0 && b >= 0
    ensures Tick(Tick(s, a), b).state == Tick(s, a + b).state
  {
  }

  /** With the timer enabled, a session that is playing dies once the remaining frames have elapsed. */
  lemma TimerRunsOut(s: GameSession, elapsed: int)
    requires s.state == Playing && s.timerEnabled && elapsed >= s.timer
    ensures Tick(s, elapsed).state == Dead
  {
  }

  /** In Practice, where the timer is off, a living player never runs out of time. */
  lemma PracticeNeverTimesOut(s: GameSession, elapsed: int)
    requires s.state == Playing && !s.timerEnabled && s.timer > 0 && !IsDead(s.player)
    ensures Tick(s, elapsed) == s
  {
  }
}

=== FILE: combat.dfy ===
/**
 * Combat calculator and combat resolver: `Calculations` and the fighting
 * members of `Creature` (include/GGJ2015/main.cpp:178-248).
 */
module Combat {
  import opened Stats

  /** The weapon's strong-set meets the armour's elements. */
  predicate IsStrong(w: Weapon, a: Armor) {
    w.strongAgainst * a.elementTypes != {}
  }

  /** The weapon's weak-set meets the armour's elements. */
  predicate IsWeak(w: Weapon, a: Armor) {
    w.weakAgainst * a.elementTypes != {}
  }

  /** Attack plus attacker's bonus, minus defence plus defender's bonus. */
  function RawDamage(w: Weapon, a: Armor, bonusATK: int, bonusDEF: int): int {
    (w.atk + bonusATK) - (a.def + bonusDEF)
  }

  /**
   * Reference statement of the multipliers on a positive raw damage, with
   * floor division: x2.5 when strong, then x0.8 when weak.
   */
  function Scaled(raw: nat, strong: bool, weak: bool): nat {
    var s := if strong then raw * 5 / 2 else raw;
    if weak then s * 4 / 5 else s
  }

  /**
   * `getWeaponDamageAgainst`: the raw damage is multiplied by 2.5 when
   * strong and then by 0.8 when weak, each product converted back to
   * `int` (toward zero), and the result clamped at 0.
   */
  function WeaponDamage(w: Weapon, a: Armor, bonusATK: int, bonusDEF: int): (r: int)
    ensures r >= 0
    ensures RawDamage(w, a, bonusATK, bonusDEF) <= 0 ==> r == 0
    ensures RawDamage(w, a, bonusATK, bonusDEF) > 0 ==>
              r == Scaled(RawDamage(w, a, bonusATK, bonusDEF), IsStrong(w, a), IsWeak(w, a))
  {
    var raw := RawDamage(w, a, bonusATK, bonusDEF);
    var afterStrong := if IsStrong(w, a) then TruncDiv(raw * 5, 2) else raw;
    var afterWeak := if IsWeak(w, a) then TruncDiv(afterStrong * 4, 5) else afterStrong;
    if afterWeak < 0 then 0 else afterWeak
  }

  /** The smallest raw damage that still hurts: 2 when only the 0.8 malus applies, 1 otherwise. */
  function MinRawToHurt(strong: bool, weak: bool): nat {
    if weak && !strong then 2 else 1
  }

  /**
   * `canWeaponDamage`: the weapon deals positive damage, which happens
   * exactly when the raw damage reaches the threshold the multipliers allow.
   */
  function CanWeaponDamage(w: Weapon, a: Armor, bonusATK: int, bonusDEF: int): (b: bool)
    ensures b <==> RawDamage(w, a, bonusATK, bonusDEF) >= MinRawToHurt(IsStrong(w, a), IsWeak(w, a))
  {
    var raw := RawDamage(w, a, bonusATK, bonusDEF);
    if raw > 0 then HurtThreshold(raw, IsStrong(w, a), IsWeak(w, a)); WeaponDamage(w, a, bonusATK, bonusDEF) > 0
    else WeaponDamage(w, a, bonusATK, bonusDEF) > 0
  }

  /** Damage one blow of `attacker` deals to `defender`. */
  function DamageTo(attacker: Creature, defender: Creature): nat {
    WeaponDamage(attacker.weapon, defender.armor, attacker.bonusATK, defender.bonusDEF)
  }

  /**
   * `Creature::canDamage`: true exactly when the attacker's damage is
   * positive, which happens exactly when the raw damage reaches the
   * threshold the multipliers allow.
   */
  function CanDamage(attacker: Creature, defender: Creature): (b: bool)
    ensures b <==> DamageTo(attacker, defender) > 0
    ensures b <==> RawDamage(attacker.weapon, defender.armor, attacker.bonusATK, defender.bonusDEF)
                   >= MinRawToHurt(IsStrong(attacker.weapon, defender.armor), IsWeak(attacker.weapon, defender.armor))
  {
    CanWeaponDamage(attacker.weapon, defender.armor, attacker.bonusATK, defender.bonusDEF)
  }

  /** A positive raw damage survives the multipliers exactly from the threshold up. */
  lemma HurtThreshold(raw: nat, strong: bool, weak: bool)
    requires raw > 0
    ensures Scaled(raw, strong, weak) > 0 <==> raw >= MinRawToHurt(strong, weak)
  {
    if strong {
      assert raw * 5 / 2 >= 2;
    }
  }

  /**
   * When both multipliers apply, a positive raw damage is doubled and then
   * loses one point exactly when it is odd.
   */
  lemma StrongAndWeakCompose(w: Weapon, a: Armor, bonusATK: int, bonusDEF: int)
    requires IsStrong(w, a) && IsWeak(w, a)
    requires RawDamage(w, a, bonusATK, bonusDEF) > 0
    ensures WeaponDamage(w, a, bonusATK, bonusDEF)
            == 2 * RawDamage(w, a, bonusATK, bonusDEF) - RawDamage(w, a, bonusATK, bonusDEF) % 2
  {
    var raw: nat := RawDamage(w, a, bonusATK, bonusDEF);
    var h := raw / 2;
    if raw % 2 == 0 {
      assert raw == 2 * h;
      assert raw * 5 / 2 == 5 * h;
      assert (5 * h) * 4 / 5 == 4 * h;
    } else {
      assert raw == 2 * h + 1;
      assert raw * 5 / 2 == 5 * h + 2;
      assert (5 * h + 2) * 4 / 5 == 4 * h + 1;
    }
  }

  /** Floor-scaling never reverses the order of two raw damages. */
  lemma ScaledMonotone(x: nat, y: nat, strong: bool, weak: bool)
    requires x <= y
    ensures Scaled(x, strong, weak) <= Scaled(y, strong, weak)
  {
    var sx := if strong then x * 5 / 2 else x;
    var sy := if strong then y * 5 / 2 else y;
    assert sx <= sy;
  }

  /** More attack bonus, or less defence bonus, never lowers the damage. */
  lemma DamageMonotone(w: Weapon, a: Armor, bonusATK: int, bonusDEF: int, bonusATK': int, bonusDEF': int)
    requires bonusATK <= bonusATK' && bonusDEF' <= bonusDEF
    ensures WeaponDamage(w, a, bonusATK, bonusDEF) <= WeaponDamage(w, a, bonusATK', bonusDEF')
  {
    var raw := RawDamage(w, a, bonusATK, bonusDEF);
    var raw' := RawDamage(w, a, bonusATK', bonusDEF');
    if raw > 0 {
      ScaledMonotone(raw, raw', IsStrong(w, a), IsWeak(w, a));
    }
  }

  /** `attackOnce`: the defender loses the attacker's damage; nothing else about it changes. */
  function AttackOnce(attacker: Creature, defender: Creature): (r: Creature)
    ensures r.hps == defender.hps - DamageTo(attacker, defender) && r.hps <= defender.hps
    ensures SameGear(r, defender) && r.bonusATK == defender.bonusATK && r.bonusDEF == defender.bonusDEF
  {
    defender.(hps := defender.hps - DamageTo(attacker, defender))
  }

  /** Hit points left after `k` blows of `dmg`. */
  function HpsAfter(hps: int, dmg: nat, k: nat): int {
    hps - k * dmg
  }

  /**
   * Outcome of a fight: both creatures afterwards, the number of blows the
   * attacker struck and the number the defender struck back.
   */
  datatype FightResult = FightResult(attacker: Creature, defender: Creature, strikes: nat, counters: nat)

  /**
   * `Creature::fight`: in every round the attacker strikes, then, if the
   * defender still stands, the defender strikes back; the fight stops at
   * the first blow that leaves its target dead. The C++ loop has no
   * bound of its own; it ends because callers only fight a defender they
   * can damage, which is this function's precondition.
   */
  function Fight(a: Creature, d: Creature): (r: FightResult)
    requires CanDamage(a, d)
    // the attacker strikes first in every round
    ensures r.strikes >= 1 && (r.counters == r.strikes || r.counters + 1 == r.strikes)
    // each side lost exactly the blows it took; gear and bonuses are untouched
    ensures r.defender == d.(hps := HpsAfter(d.hps, DamageTo(a, d), r.strikes))
    ensures r.attacker == a.(hps := HpsAfter(a.hps, DamageTo(d, a), r.counters))
    ensures r.defender.hps < d.hps && r.attacker.hps <= a.hps
    // the last blow fells its target, and every earlier round left both standing
    ensures r.counters < r.strikes ==> IsDead(r.defender)
    ensures r.counters == r.strikes ==> IsDead(r.attacker) && !IsDead(r.defender)
    ensures forall k: nat :: 1 <= k < r.strikes ==>
              HpsAfter(d.hps, DamageTo(a, d), k) > 0 && HpsAfter(a.hps, DamageTo(d, a), k) > 0
    // an attacker that starts alive ends with exactly one of the two dead
    ensures a.hps > 0 ==> (IsDead(r.attacker) <==> !IsDead(r.defender))
    decreases d.hps
  {
    var dmgA := DamageTo(a, d);
    var dmgD := DamageTo(d, a);
    var d1 := AttackOnce(a, d);
    if IsDead(d1) then
      FightResult(a, d1, 1, 0)
    else
      var a1 := AttackOnce(d1, a);
      if IsDead(a1) then
        FightResult(a1, d1, 1, 1)
      else
        assert DamageTo(a1, d1) == dmgA && DamageTo(d1, a1) == dmgD;
        var r := Fight(a1, d1);
        ShiftRounds(d.hps, d1.hps, dmgA, a.hps, a1.hps, dmgD, r.strikes);
        FightResult(r.attacker, r.defender, r.strikes + 1, r.counters + 1)
  }

  /** One more round in front of a fight: the earlier rounds' hit points shift by one blow. */
  lemma ShiftRounds(hd: int, hd1: int, dmgA: nat, ha: int, ha1: int, dmgD: nat, strikes: nat)
    requires hd1 == hd - dmgA && ha1 == ha - dmgD
    requires hd1 > 0 && ha1 > 0
    requires forall k: nat :: 1 <= k < strikes ==> HpsAfter(hd1, dmgA, k) > 0 && HpsAfter(ha1, dmgD, k) > 0
    ensures forall k: nat :: 1 <= k < strikes + 1 ==> HpsAfter(hd, dmgA, k) > 0 && HpsAfter(ha, dmgD, k) > 0
    ensures forall k: nat :: HpsAfter(hd1, dmgA, k) == HpsAfter(hd, dmgA, k + 1)
    ensures forall k: nat :: HpsAfter(ha1, dmgD, k) == HpsAfter(ha, dmgD, k + 1)
  {
    forall k: nat | 1 <= k < strikes + 1
      ensures HpsAfter(hd, dmgA, k) > 0 && HpsAfter(ha, dmgD, k) > 0
    {
      if k > 1 {
        assert HpsAfter(hd1, dmgA, k - 1) == HpsAfter(hd, dmgA, k);
        assert HpsAfter(ha1, dmgD, k - 1) == HpsAfter(ha, dmgD, k);
      }
    }
  }

  /** Blows of `dmg` needed to bring `hps` to zero or below; the first blow always lands. */
  function BlowsToFell(hps: int, dmg: nat): nat
    requires dmg > 0
    decreases hps
  {
    if hps <= dmg then 1 else 1 + BlowsToFell(hps - dmg, dmg)
  }

  /**
   * Who wins, without running the loop: a living attacker wins exactly when
   * the defender cannot hurt it, or when felling the defender takes no more
   * blows than felling the attacker.
   */
  lemma {:induction false} FightWinner(a: Creature, d: Creature)
    requires CanDamage(a, d) && a.hps > 0
    ensures !IsDead(Fight(a, d).attacker) <==>
            (DamageTo(d, a) == 0 || BlowsToFell(d.hps, DamageTo(a, d)) <= BlowsToFell(a.hps, DamageTo(d, a)))
    decreases d.hps
  {
    var dmgA := DamageTo(a, d);
    var dmgD := DamageTo(d, a);
    var d1 := AttackOnce(a, d);
    if IsDead(d1) {
      assert BlowsToFell(d.hps, dmgA) == 1;
      if dmgD > 0 {
        assert BlowsToFell(a.hps, dmgD) >= 1;
      }
    } else {
      var a1 := AttackOnce(d1, a);
      assert DamageTo(a1, d1) == dmgA && DamageTo(d1, a1) == dmgD;
      if IsDead(a1) {
        assert dmgD > 0;
        assert BlowsToFell(a.hps, dmgD) == 1;
        assert BlowsToFell(d.hps, dmgA) == 1 + BlowsToFell(d.hps - dmgA, dmgA);
      } else {
        FightWinner(a1, d1);
        assert BlowsToFell(d.hps, dmgA) == 1 + BlowsToFell(d1.hps, dmgA);
        if dmgD > 0 {
          assert BlowsToFell(a.hps, dmgD) == 1 + BlowsToFell(a1.hps, dmgD);
        }
      }
    }
  }

  /**
   * A worked damage example: attack 15 strong against Fire
   * on armour of defence 2 with Fire and Earth deals raw 13, times 2.5,
   * truncated to 32.
   */
  lemma FireScenario()
    ensures WeaponDamage(Weapon("Blade", {0}, {}, 15, Sword), Armor("Plate", {0, 2}, 2), 0, 0) == 32
  {
    var w := Weapon("Blade", {0}, {}, 15, Sword);
    var a := Armor("Plate", {0, 2}, 2);
    assert 0 in w.strongAgainst * a.elementTypes;
    assert !IsWeak(w, a);
  }
}

=== FILE: draws.dfy ===
/**
 * Random draws made explicit. The game draws from one global engine
 * (`ssvu::getRnd`, `ssvu::getRndR`, `std::shuffle`); here every generator
 * takes the remaining draws as a sequence of integers and returns what it
 * did not consume, so generation is a pure function of that sequence.
 */
module Draws {

  /** A generated value together with the draws left over. */
  datatype Rolled<T> = Rolled(value: T, rest: seq<int>)

  /**
   * `ssvu::getRnd(lo, hi)`: a value in `[lo, hi)` taken from the next draw.
   * An exhausted sequence reads as the top of the range.
   */
  function Roll(rng: seq<int>, lo: int, hi: int): (r: Rolled<int>)
    requires lo < hi
    ensures lo <= r.value < hi
    ensures |rng| > 0 ==> r.rest == rng[1..]
    ensures |rng| == 0 ==> r.rest == [] && r.value == hi - 1
  {
    if |rng| == 0 then Rolled(hi - 1, [])
    else Rolled(lo + rng[0] % (hi - lo), rng[1..])
  }

  predicate Distinct<T(==)>(s: seq<T>) {
    forall i, j :: 0 <= i < j < |s| ==> s[i] != s[j]
  }

  /** Exchange two positions. */
  function Swap<T(==)>(s: seq<T>, i: nat, j: nat): (r: seq<T>)
    requires i < |s| && j < |s|
    ensures |r| == |s| && multiset(r) == multiset(s)
    ensures Distinct(s) ==> Distinct(r)
  {
    s[i := s[j]][j := s[i]]
  }

  /** Fisher-Yates from position `i` down to 1: swap position `i` with a drawn position in `[0, i]`. */
  function ShuffleDown<T(==)>(s: seq<T>, i: nat, rng: seq<int>): (r: Rolled<seq<T>>)
    requires i < |s|
    ensures |r.value| == |s| && multiset(r.value) == multiset(s)
    ensures Distinct(s) ==> Distinct(r.value)
    ensures |r.rest| <= |rng|
    ensures |rng| >= i ==> r.rest == rng[i..]
    decreases i
  {
    if i == 0 then Rolled(s, rng)
    else
      var j := Roll(rng, 0, i + 1);
      var r := ShuffleDown(Swap(s, i, j.value), i - 1, j.rest);
      assert |rng| >= i ==> j.rest[i - 1..] == rng[i..];
      r
  }

  /** `std::shuffle`: a permutation of `s` chosen by the draws. */
  function Shuffle<T(==)>(s: seq<T>, rng: seq<int>): (r: Rolled<seq<T>>)
    ensures |r.value| == |s| && multiset(r.value) == multiset(s)
    ensures Distinct(s) ==> Distinct(r.value)
    ensures |r.rest| <= |rng|
    ensures |s| > 0 && |rng| >= |s| - 1 ==> r.rest == rng[|s| - 1..]
  {
    if |s| == 0 then Rolled(s, rng) else ShuffleDown(s, |s| - 1, rng)
  }

  /** The values at the first `k` positions of `order`. */
  function FirstOf<T>(order: seq<T>, k: nat): set<T>
    requires k <= |order|
  {
    set i | 0 <= i < k :: order[i]
  }

  /** The first `k` positions of a distinct order hold `k` different values. */
  lemma {:induction false} FirstOfCount<T>(order: seq<T>, k: nat)
    requires k <= |order| && Distinct(order)
    ensures |FirstOf(order, k)| == k
  {
    if k > 0 {
      FirstOfCount(order, k - 1);
      assert FirstOf(order, k) == FirstOf(order, k - 1) + {order[k - 1]};
      assert order[k - 1] !in FirstOf(order, k - 1);
    }
  }

  /** Every position of a shuffle holds one of the shuffled values. */
  lemma ShuffledMembers<T>(s: seq<T>, rng: seq<int>, k: nat)
    requires k < |s|
    ensures Shuffle(s, rng).value[k] in s
  {
    var p := Shuffle(s, rng).value;
    assert p[k] in multiset(p);
  }
}

=== FILE: drops.dfy ===
/**
 * Drops: the `Drop` hierarchy (`WeaponDrop`, `ArmorDrop`, `DropIE`) and the
 * three-slot `ItemDrops` container (include/GGJ2015/main.cpp:448-467,
 * 617-744), plus `GameSession::tryPickupDrop` (main.cpp:912-917).
 */
module Drops {
  import opened Wrappers
  import opened Stats
  import opened Effects

  /** A pickup: a replacement weapon, a replacement armour, or a list of instant effects. */
  datatype Drop =
    | WeaponDrop(weapon: Weapon)
    | ArmorDrop(armor: Armor)
    | EffectDrop(effects: seq<InstantEffect>)

  predicate EffectsDefined(effects: seq<InstantEffect>) {
    forall i :: 0 <= i < |effects| ==> Defined(effects[i])
  }

  predicate DropDefined(d: Drop) {
    d.EffectDrop? ==> EffectsDefined(d.effects)
  }

  /** `DropIE::apply`: the effects one after the other, each followed by its burn check. */
  function ApplyEffects(effects: seq<InstantEffect>, c: Creature, room: int, difficulty: int): (r: Creature)
    requires EffectsDefined(effects)
    ensures SameGear(r, c)
    ensures |effects| > 0 ==> r.bonusATK >= 0 && r.bonusDEF >= 0
    ensures |effects| == 0 ==> r == c
    decreases |effects|
  {
    if |effects| == 0 then c
    else ApplyEffects(effects[1..], ApplyEffect(effects[0], c, room, difficulty), room, difficulty)
  }

  /** Applying two lists in turn is applying their concatenation. */
  lemma {:induction false} ApplyEffectsAppend(xs: seq<InstantEffect>, ys: seq<InstantEffect>, c: Creature, room: int, difficulty: int)
    requires EffectsDefined(xs) && EffectsDefined(ys)
    ensures EffectsDefined(xs + ys)
    ensures ApplyEffects(xs + ys, c, room, difficulty)
            == ApplyEffects(ys, ApplyEffects(xs, c, room, difficulty), room, difficulty)
    decreases |xs|
  {
    if |xs| == 0 {
      assert xs + ys == ys;
    } else {
      assert (xs + ys)[0] == xs[0];
      assert (xs + ys)[1..] == xs[1..] + ys;
      ApplyEffectsAppend(xs[1..], ys, ApplyEffect(xs[0], c, room, difficulty), room, difficulty);
    }
  }

  /** A one-effect drop applies exactly that instant effect, burn check included. */
  lemma ApplyEffectsSingle(e: InstantEffect, c: Creature, room: int, difficulty: int)
    requires Defined(e)
    ensures EffectsDefined([e])
    ensures ApplyEffects([e], c, room, difficulty) == ApplyEffect(e, c, room, difficulty)
  {
  }

  /**
   * The fold one effect at a time: applying a list and then one more
   * effect is applying that effect to the result of the list.
   */
  lemma {:induction false} ApplyEffectsSnoc(xs: seq<InstantEffect>, e: InstantEffect, c: Creature, room: int, difficulty: int)
    requires EffectsDefined(xs) && Defined(e)
    ensures EffectsDefined(xs + [e])
    ensures ApplyEffects(xs + [e], c, room, difficulty)
            == ApplyEffect(e, ApplyEffects(xs, c, room, difficulty), room, difficulty)
  {
    ApplyEffectsSingle(e, ApplyEffects(xs, c, room, difficulty), room, difficulty);
    ApplyEffectsAppend(xs, [e], c, room, difficulty);
  }

  /**
   * `Drop::apply` overrides: a weapon drop replaces only the weapon, an
   * armour drop only the armour, an effect drop never touches either.
   */
  function ApplyDrop(d: Drop, c: Creature, room: int, difficulty: int): (r: Creature)
    requires DropDefined(d)
    ensures d.WeaponDrop? ==> r.weapon == d.weapon && r.(weapon := c.weapon) == c
    ensures d.ArmorDrop? ==> r.armor == d.armor && r.(armor := c.armor) == c
    ensures d.EffectDrop? ==> SameGear(r, c) && r == ApplyEffects(d.effects, c, room, difficulty)
  {
    match d
    case WeaponDrop(w) => c.(weapon := w)
    case ArmorDrop(a) => c.(armor := a)
    case EffectDrop(effects) => ApplyEffects(effects, c, room, difficulty)
  }

  /** Equipment drops touch disjoint fields, so their order does not matter. */
  lemma EquipmentDropsCommute(w: Weapon, a: Armor, c: Creature, room: int, difficulty: int)
    ensures ApplyDrop(WeaponDrop(w), ApplyDrop(ArmorDrop(a), c, room, difficulty), room, difficulty)
            == ApplyDrop(ArmorDrop(a), ApplyDrop(WeaponDrop(w), c, room, difficulty), room, difficulty)
  {
  }

  /** A fixed array of three optional drops. */
  type ItemDrops = s: seq<Option<Drop>> | |s| == MaxDrops witness [None, None, None]

  predicate AllDropsDefined(ds: seq<Option<Drop>>) {
    forall i :: 0 <= i < |ds| && ds[i].Some? ==> DropDefined(ds[i].value)
  }

  /** `ItemDrops::has`. */
  predicate Has(ds: ItemDrops, i: nat)
    requires i < MaxDrops
  {
    ds[i].Some?
  }

  /**
   * `ItemDrops::give`: apply the drop in slot `i` to the creature and empty
   * the slot; the other slots keep their drops.
   */
  function Give(ds: ItemDrops, i: nat, c: Creature, room: int, difficulty: int): (r: (ItemDrops, Creature))
    requires i < MaxDrops && Has(ds, i) && DropDefined(ds[i].value)
    ensures !Has(r.0, i)
    ensures forall j :: 0 <= j < MaxDrops && j != i ==> r.0[j] == ds[j]
    ensures r.1 == ApplyDrop(ds[i].value, c, room, difficulty)
    ensures AllDropsDefined(ds) ==> AllDropsDefined(r.0)
  {
    (ds[i := None], ApplyDrop(ds[i].value, c, room, difficulty))
  }

  /**
   * `GameSession::tryPickupDrop`: an empty slot changes nothing; a full one
   * is given to the creature.
   */
  function TryPickup(ds: ItemDrops, i: nat, c: Creature, room: int, difficulty: int): (r: (ItemDrops, Creature))
    requires i < MaxDrops && AllDropsDefined(ds)
    ensures !Has(r.0, i) && AllDropsDefined(r.0)
    ensures !Has(ds, i) ==> r == (ds, c)
    ensures Has(ds, i) ==> r == Give(ds, i, c, room, difficulty)
  {
    if !Has(ds, i) then (ds, c) else Give(ds, i, c, room, difficulty)
  }

  /** A drop is consumed at most once: picking up the same slot again changes nothing. */
  lemma PickupAtMostOnce(ds: ItemDrops, i: nat, c: Creature, room: int, difficulty: int)
    requires i < MaxDrops && AllDropsDefined(ds)
    ensures var r := TryPickup(ds, i, c, room, difficulty);
            TryPickup(r.0, i, r.1, room, difficulty) == r
  {
  }
}

=== FILE: effects.dfy ===
/**
 * Instant effects and the stat burn: `InstantEffect::apply` and
 * `Creature::checkBurns` (include/GGJ2015/main.cpp:398-446, 1330-1378).
 */
module Effects {
  import opened Stats

  datatype EffectType = Add | Sub | Mul | Div

  datatype Stat = SHPS | SATK | SDEF

  /**
   * One stat change. The game stores the magnitude as a `float`; every
   * magnitude the game generates is a whole number, so it is an `int` here.
   */
  datatype InstantEffect = InstantEffect(kind: EffectType, stat: Stat, value: int)

  /** A division by zero has no meaning in the game (float infinity cast to `int`). */
  predicate Defined(e: InstantEffect) {
    e.kind == Div ==> e.value != 0
  }

  /** The field an effect on `s` targets. */
  function StatOf(c: Creature, s: Stat): int {
    match s
    case SHPS => c.hps
    case SATK => c.bonusATK
    case SDEF => c.bonusDEF
  }

  /** The four operations, with `/` rounding toward zero as the float-to-`int` cast does. */
  function Combine(kind: EffectType, x: int, v: int): int
    requires kind == Div ==> v != 0
  {
    match kind
    case Add => x + v
    case Sub => x - v
    case Mul => x * v
    case Div => if v > 0 then TruncDiv(x, v) else -TruncDiv(x, -v)
  }

  /**
   * The first half of `InstantEffect::apply`: the targeted field, and only
   * that field, is combined with the effect's value.
   */
  function ApplyToStat(e: InstantEffect, c: Creature): (r: Creature)
    requires Defined(e)
    ensures StatOf(r, e.stat) == Combine(e.kind, StatOf(c, e.stat), e.value)
    ensures forall s :: s != e.stat ==> StatOf(r, s) == StatOf(c, s)
    ensures SameGear(r, c)
  {
    var v := Combine(e.kind, StatOf(c, e.stat), e.value);
    match e.stat
    case SHPS => c.(hps := v)
    case SATK => c.(bonusATK := v)
    case SDEF => c.(bonusDEF := v)
  }

  /** Subtracting what was added restores the creature. */
  lemma AddThenSubRestores(s: Stat, v: int, c: Creature)
    ensures ApplyToStat(InstantEffect(Sub, s, v), ApplyToStat(InstantEffect(Add, s, v), c)) == c
  {
    var r := ApplyToStat(InstantEffect(Sub, s, v), ApplyToStat(InstantEffect(Add, s, v), c));
    assert StatOf(r, SHPS) == StatOf(c, SHPS);
    assert StatOf(r, SATK) == StatOf(c, SATK);
    assert StatOf(r, SDEF) == StatOf(c, SDEF);
  }

  function NegPart(x: int): nat {
    if x < 0 then -x else 0
  }

  /** Sum of the negated negative bonuses. */
  function Burn(c: Creature): nat {
    NegPart(c.bonusATK) + NegPart(c.bonusDEF)
  }

  /**
   * `checkBurns`: each negative bonus is reset to 0 and its debt summed;
   * a positive debt costs `debt * 5 * room * difficulty` hit points, the
   * difference converted to `int` toward zero. `difficulty` is given in
   * thousandths.
   */
  function CheckBurns(c: Creature, room: int, difficulty: int): (r: Creature)
    ensures r.bonusATK >= 0 && r.bonusDEF >= 0
    ensures r.bonusATK == (if c.bonusATK < 0 then 0 else c.bonusATK)
    ensures r.bonusDEF == (if c.bonusDEF < 0 then 0 else c.bonusDEF)
    ensures SameGear(r, c)
    ensures c.bonusATK >= 0 && c.bonusDEF >= 0 ==> r == c
    ensures Burn(c) > 0 ==> TruncatesTo(c.hps * 1000 - Burn(c) * 5 * room * difficulty, r.hps)
  {
    var burn := Burn(c);
    if burn == 0 then c
    else
      var hps := TruncDiv(c.hps * 1000 - burn * 5 * room * difficulty, 1000);
      TruncDivThousand(c.hps * 1000 - burn * 5 * room * difficulty);
      c.(bonusATK := if c.bonusATK < 0 then 0 else c.bonusATK,
         bonusDEF := if c.bonusDEF < 0 then 0 else c.bonusDEF,
         hps := hps)
  }

  /** A second burn check finds nothing to burn. */
  lemma CheckBurnsIdempotent(c: Creature, room: int, difficulty: int)
    ensures CheckBurns(CheckBurns(c, room, difficulty), room, difficulty) == CheckBurns(c, room, difficulty)
  {
  }

  /** At difficulty 1 the burn costs exactly `debt * 5 * room` hit points. */
  lemma BurnAtUnitDifficulty(c: Creature, room: int)
    ensures CheckBurns(c, room, 1000).hps == c.hps - Burn(c) * 5 * room
  {
    var m := c.hps - Burn(c) * 5 * room;
    if Burn(c) > 0 {
      assert c.hps * 1000 - Burn(c) * 5 * room * 1000 == m * 1000;
    }
  }

  /** With a non-negative room number and difficulty a burn never heals. */
  lemma BurnNeverHeals(c: Creature, room: int, difficulty: int)
    requires room >= 0 && difficulty >= 0
    ensures CheckBurns(c, room, difficulty).hps <= c.hps
  {
    if Burn(c) > 0 {
      var b := Burn(c) * 5 * room;
      assert b >= 0;
      assert b * difficulty >= 0;
      assert Burn(c) * 5 * room * difficulty == b * difficulty;
    }
  }

  /**
   * `InstantEffect::apply`: change the targeted field, then check burns.
   * Names, weapons and armour (base attack and defence) are never touched,
   * and no bonus is left negative.
   */
  function ApplyEffect(e: InstantEffect, c: Creature, room: int, difficulty: int): (r: Creature)
    requires Defined(e)
    ensures SameGear(r, c)
    ensures r.bonusATK >= 0 && r.bonusDEF >= 0
    ensures e.stat == SHPS && c.bonusATK >= 0 && c.bonusDEF >= 0 ==>
              r == c.(hps := Combine(e.kind, c.hps, e.value))
    ensures e.stat == SATK ==> r.bonusATK == (var v := Combine(e.kind, c.bonusATK, e.value); if v < 0 then 0 else v)
    ensures e.stat == SDEF ==> r.bonusDEF == (var v := Combine(e.kind, c.bonusDEF, e.value); if v < 0 then 0 else v)
    ensures e.stat != SATK ==> r.bonusATK == (if c.bonusATK < 0 then 0 else c.bonusATK)
    ensures e.stat != SDEF ==> r.bonusDEF == (if c.bonusDEF < 0 then 0 else c.bonusDEF)
    ensures Burn(ApplyToStat(e, c)) == 0 ==> r == ApplyToStat(e, c)
  {
    CheckBurns(ApplyToStat(e, c), room, difficulty)
  }
}

=== FILE: generators.dfy ===
/**
 * Procedural generation: the `GameSession` members that roll elements,
 * stats, weapons, armour, creatures, instant effects and drops
 * (include/GGJ2015/main.cpp:945-1140). The session's `difficulty` is passed
 * in thousandths (1.0 is 1000); the random draws are an explicit sequence.
 */
module Generators {
  import opened Wrappers
  import opened Stats
  import opened Draws
  import opened Effects
  import opened Drops
  import opened Names

  /** `static_cast<int>(level * difficulty)`. */
  function LevelDifficulty(level: int, difficulty: int): int {
    TruncDiv(level * difficulty, 1000)
  }

  /** `static_cast<int>(((level * 0.8f) + 4) * difficulty)`, the base of a stat roll. */
  function StatBase(level: int, difficulty: int): int {
    TruncDiv((level * 800 + 4000) * difficulty, 1000000)
  }

  lemma MulAtLeast(a: int, b: int, lo: int, blo: int)
    requires a >= lo >= 0 && b >= blo >= 0
    ensures a * b >= lo * blo
  {
    assert a * b >= lo * b;
    assert lo * b >= lo * blo;
  }

  /** From level 0 and difficulty 1 upward, a stat roll has a base of at least 4. */
  lemma StatBaseAtLeastFour(level: int, difficulty: int)
    requires level >= 0 && difficulty >= 1000
    ensures StatBase(level, difficulty) >= 4
  {
    MulAtLeast(level * 800 + 4000, difficulty, 4000, 1000);
  }

  // ---------------------------------------------------------------- elements

  /** The element indices before the shuffle. */
  const ElementIndices: seq<Element> := [0, 1, 2, 3]

  /**
   * How many tier dice `generateRndElements` rolls for the scaled level
   * `d`: the first always, the others only from `d` 20, 30 and 40.
   */
  function ElementTiers(d: int): nat {
    if d < 20 then 1 else if d < 30 then 2 else if d < 40 then 3 else 4
  }

  function Hit(die: int, chance: int): nat {
    if die < chance then 1 else 0
  }

  /** The chance, out of 100, of each tier die. */
  const TierChances: seq<int> := [50, 45, 40, 35]

  /**
   * Reference count of the successful tier dice among the first `k` draws:
   * draw `t` succeeds when it falls below tier `t`'s chance out of 100.
   */
  function TierSuccesses(dice: seq<int>, k: nat): (n: nat)
    requires k <= |dice| && k <= |TierChances|
    ensures n <= k
  {
    if k == 0 then 0 else TierSuccesses(dice, k - 1) + Hit(dice[k - 1] % 100, TierChances[k - 1])
  }

  /**
   * The tier dice: one die in `[0, 100)` per tier reached, succeeding below
   * 50, 45, 40 and 35; the result counts the successes. A failed die does
   * not end the rolling, only the thresholds on `d` do.
   */
  method TierHits(d: int, rng: seq<int>) returns (r: Rolled<nat>)
    ensures r.value <= ElementTiers(d)
    ensures |rng| >= ElementTiers(d) ==> r.value == TierSuccesses(rng, ElementTiers(d))
    ensures |rng| >= ElementTiers(d) ==> r.rest == rng[ElementTiers(d)..]
    ensures |r.rest| <= |rng|
  {
    var hits := 0;
    var rest := rng;
    var tier := 0;
    while tier < ElementTiers(d)
      invariant 0 <= hits <= tier <= ElementTiers(d)
      invariant |rng| >= tier ==> rest == rng[tier..] && hits == TierSuccesses(rng, tier)
      invariant |rest| <= |rng|
    {
      var die := Roll(rest, 0, 100);
      hits := hits + Hit(die.value, TierChances[tier]);
      rest := die.rest;
      tier := tier + 1;
    }
    r := Rolled(hits, rest);
  }


  /**
   * `generateRndElements` for the scaled level `d = level * difficulty`:
   * before room 10 nothing happens and nothing is drawn. From room 10 the
   * indices are shuffled and each successful tier die sets the next
   * shuffled index, so bits are only ever set, each at a fresh index, at
   * most one per tier. `hits` is the number of successful dice: the shuffle
   * takes three draws and the tier dice the next ones.
   */
  method GenerateElements(d: int, x: ElementSet, room: int, rng: seq<int>)
    returns (r: Rolled<ElementSet>, hits: nat, order: seq<Element>)
    ensures room < 10 ==> r == Rolled(x, rng) && hits == 0
    ensures |order| == 4 && Distinct(order) && multiset(order) == multiset(ElementIndices)
    ensures room >= 10 ==> hits <= 4 && r.value == x + FirstOf(order, hits)
    ensures room >= 10 && |rng| >= 3 + ElementTiers(d) ==>
              hits == TierSuccesses(rng[3..], ElementTiers(d)) && r.rest == rng[3 + ElementTiers(d)..]
    ensures x <= r.value && hits <= ElementTiers(d)
    ensures |r.value| <= |x| + hits
    ensures x == {} ==> |r.value| == hits
    ensures |r.rest| <= |rng|
  {
    order := ElementIndices;
    assert Distinct(order);
    if room < 10 {
      return Rolled(x, rng), 0, order;
    }
    var shuffled := ShuffleIndices(rng);
    order := shuffled.value;
    var dice := TierHits(d, shuffled.rest);
    AddFirst(x, order, dice.value);
    r, hits := Rolled(x + FirstOf(order, dice.value), dice.rest), dice.value;
    if |rng| >= 3 + ElementTiers(d) {
      assert shuffled.rest[ElementTiers(d)..] == rng[3 + ElementTiers(d)..];
    }
  }



  /** `std::shuffle` of the four element indices: a distinct order of all of them. */
  method ShuffleIndices(rng: seq<int>) returns (r: Rolled<seq<Element>>)
    ensures multiset(r.value) == multiset(ElementIndices)
    ensures |r.rest| <= |rng|
    ensures |r.value| == 4 && Distinct(r.value)
    ensures |rng| >= 3 ==> r.rest == rng[3..]
  {
    assert Distinct(ElementIndices);
    r := Shuffle(ElementIndices, rng);
  }

  /** Adding the first `k` of a distinct order to `x` adds at most `k` elements, exactly `k` to an empty set. */
  lemma AddFirst(x: ElementSet, order: seq<Element>, k: nat)
    requires k <= |order| && Distinct(order)
    ensures x <= x + FirstOf(order, k)
    ensures |x + FirstOf(order, k)| <= |x| + k
    ensures x == {} ==> |x + FirstOf(order, k)| == k
  {
    FirstOfCount(order, k);
    assert |x + FirstOf(order, k)| <= |x| + |FirstOf(order, k)|;
  }

  // ---------------------------------------------------------------- stats and equipment

  /**
   * `getRndStat`: a roll in `[0.65 d, 1.55 d)` (each bound truncated) for
   * the base `d`, clamped at 0. The C++ range is empty unless `d >= 1`.
   */
  method GetRndStat(level: int, difficulty: int, rng: seq<int>) returns (r: Rolled<int>)
    requires StatBase(level, difficulty) >= 1
    ensures var d := StatBase(level, difficulty);
            0 <= r.value && d * 65 / 100 <= r.value < d * 155 / 100
    ensures |r.rest| <= |rng|
  {
    var d := StatBase(level, difficulty);
    var roll := Roll(rng, TruncDiv(d * 65, 100), TruncDiv(d * 155, 100));
    r := Rolled(if roll.value < 0 then 0 else roll.value, roll.rest);
  }

  function Digit(n: nat): char
    requires n < 10
  {
    "0123456789"[n]
  }

  function NatToString(n: nat): string {
    if n < 10 then [Digit(n)] else NatToString(n / 10) + [Digit(n % 10)]
  }

  /** `ssvu::toStr` on an `int`. */
  function IntToString(n: int): string {
    if n < 0 then "-" + NatToString(-n) else NatToString(n)
  }

  /** The placeholder name the generators give equipment. */
  function GeneratedName(d: int): string {
    "Generated name TODO (lvl: " + IntToString(d) + ")"
  }

  function WeaponTypeOf(n: int): WeaponType {
    if n == 0 then Mace else if n == 1 then Sword else Spear
  }

  /**
   * `generateWeapon`: attack is a stat roll plus one, then a strong-set and
   * a weak-set of elements, then a uniformly drawn weapon type.
   */
  method GenerateWeapon(level: int, room: int, difficulty: int, rng: seq<int>) returns (r: Rolled<Weapon>)
    requires StatBase(level, difficulty) >= 1
    ensures r.value.name == GeneratedName(LevelDifficulty(level, difficulty))
    ensures 1 <= r.value.atk <= StatBase(level, difficulty) * 155 / 100
    ensures StatBase(level, difficulty) * 65 / 100 < r.value.atk
    ensures room < 10 ==> r.value.strongAgainst == {} && r.value.weakAgainst == {}
    ensures |r.value.strongAgainst| <= ElementTiers(LevelDifficulty(level, difficulty))
    ensures |r.value.weakAgainst| <= ElementTiers(LevelDifficulty(level, difficulty))
    ensures |r.rest| <= |rng|
  {
    var d := LevelDifficulty(level, difficulty);
    var stat := GetRndStat(level, difficulty, rng);
    var strong, _, _ := GenerateElements(d, {}, room, stat.rest);
    var weak, _, _ := GenerateElements(d, {}, room, strong.rest);
    var kind := Roll(weak.rest, 0, 3);
    r := Rolled(Weapon(GeneratedName(d), strong.value, weak.value, stat.value + 1,
                       WeaponTypeOf(kind.value)),
                kind.rest);
  }

  /** `generateArmor`: defence is a stat roll times 0.7, truncated; then the armour's elements. */
  method GenerateArmor(level: int, room: int, difficulty: int, rng: seq<int>) returns (r: Rolled<Armor>)
    requires StatBase(level, difficulty) >= 1
    ensures r.value.name == GeneratedName(LevelDifficulty(level, difficulty))
    ensures 0 <= r.value.def && r.value.def * 10 < StatBase(level, difficulty) * 155 / 100 * 7
    ensures StatBase(level, difficulty) * 65 / 100 * 7 / 10 <= r.value.def
    ensures room < 10 ==> r.value.elementTypes == {}
    ensures |r.value.elementTypes| <= ElementTiers(LevelDifficulty(level, difficulty))
    ensures |r.rest| <= |rng|
  {
    var d := LevelDifficulty(level, difficulty);
    var stat := GetRndStat(level, difficulty, rng);
    var elements, _, _ := GenerateElements(d, {}, room, stat.rest);
    r := Rolled(Armor(GeneratedName(d), elements.value, TruncDiv(stat.value * 7, 10)),
                elements.rest);
  }

  /** `getClampedMin(level * 0.69f + difficulty - 1, 1)` converted to `int`: the level of a creature's armour. */
  function CreatureArmorLevel(level: int, difficulty: int): int {
    var v := TruncDiv(level * 690 + difficulty - 1000, 1000);
    if v < 1 then 1 else v
  }

  /**
   * `generateCreature`: a generated name, armour of a reduced level, a
   * weapon of the level below, `5 d` hit points plus a roll below `3 d`
   * for `d = level * difficulty`, and no bonuses. The C++ hit-point
   * roll has an empty range unless `d >= 1`, which with a difficulty of at
   * least 1 is a level of at least 1.
   */
  method GenerateCreature(level: int, room: int, difficulty: int, rng: seq<int>) returns (r: Rolled<Creature>)
    requires level >= 1 && difficulty >= 1000
    ensures var d := LevelDifficulty(level, difficulty);
            d >= 1 && 5 * d <= r.value.hps < 8 * d
    ensures r.value.weapon.atk >= 1 && r.value.armor.def >= 0
    ensures r.value.bonusATK == 0 && r.value.bonusDEF == 0
    ensures room < 10 ==>
              r.value.weapon.strongAgainst == {} && r.value.weapon.weakAgainst == {} && r.value.armor.elementTypes == {}
    ensures |r.rest| <= |rng|
  {
    MulAtLeast(level, difficulty, 1, 1000);
    var d := LevelDifficulty(level, difficulty);
    var name := CreatureName(rng);
    var armorLevel, weaponLevel := CreatureArmorLevel(level, difficulty), level - 1;
    StatBaseAtLeastFour(armorLevel, difficulty);
    StatBaseAtLeastFour(weaponLevel, difficulty);
    var armor := GenerateArmor(armorLevel, room, difficulty, name.rest);
    var weapon := GenerateWeapon(weaponLevel, room, difficulty, armor.rest);
    var extra := Roll(weapon.rest, 0, d * 3);
    r := Rolled(Creature(name.value, weapon.value, armor.value, d * 5 + extra.value, 0, 0), extra.rest);
  }

  // ---------------------------------------------------------------- instant effects and drops

  /** The draw range of an effect's magnitude is non-empty. */
  predicate EffectLevel(level: int) {
    3 + TruncDiv(level, 12) > 0
  }

  /**
   * `generateInstantEffect`: the magnitude is `level / 8` plus a roll below
   * `3 + level / 12`, at least 1; an effect on HPS instead gets `level`
   * times a roll in `[8, 12]`, drawn after the first roll.
   */
  method GenerateInstantEffect(stat: Stat, kind: EffectType, level: int, rng: seq<int>) returns (r: Rolled<InstantEffect>)
    requires EffectLevel(level)
    ensures r.value.kind == kind && r.value.stat == stat
    ensures stat != SHPS ==> 1 <= r.value.value
    ensures stat != SHPS && level >= 0 ==> r.value.value <= level / 8 + 2 + level / 12
    ensures stat != SHPS && level >= 0 ==> (if level / 8 >= 1 then level / 8 else 1) <= r.value.value
    ensures stat == SHPS && level >= 0 ==> 8 * level <= r.value.value <= 12 * level
    ensures |r.rest| <= |rng|
  {
    var first := Roll(rng, 0, 3 + TruncDiv(level, 12));
    if stat == SHPS {
      var second := Roll(first.rest, -2, 3);
      var m := 10 + second.value;
      if level >= 0 {
        MulAtLeast(level, m, 0, 8);
        assert level * m <= level * 12;
      }
      r := Rolled(InstantEffect(kind, stat, level * m), second.rest);
    } else {
      var v := TruncDiv(level, 8) + first.value;
      if level >= 0 {
        assert TruncDiv(level, 8) == level / 8 && TruncDiv(level, 12) == level / 12;
        assert level / 8 <= v <= level / 8 + 2 + level / 12;
      }
      r := Rolled(InstantEffect(kind, stat, if v < 1 then 1 else v), first.rest);
    }
  }

  /** The stats before `getShuffledStats` shuffles them. */
  const AllStats: seq<Stat> := [SHPS, SATK, SDEF]

  /** The two effects `addIEs` appends: an Add and then a Sub, on two different stats. */
  predicate GoodPair(effects: seq<InstantEffect>, i: nat) {
    2 * i + 1 < |effects|
    && effects[2 * i].kind == Add && effects[2 * i + 1].kind == Sub
    && effects[2 * i].stat != effects[2 * i + 1].stat
  }

  /** Effects as `generateDropIE` builds them: whole Add/Sub pairs. */
  predicate Paired(effects: seq<InstantEffect>) {
    |effects| % 2 == 0 && forall i: nat :: i < |effects| / 2 ==> GoodPair(effects, i)
  }

  /** Whole pairs are only Add and Sub effects, so none of them divides. */
  lemma PairedDefined(effects: seq<InstantEffect>)
    requires Paired(effects)
    ensures EffectsDefined(effects)
  {
    forall k | 0 <= k < |effects|
      ensures Defined(effects[k])
    {
      assert GoodPair(effects, k / 2);
    }
  }

  /** Appending a good pair to whole pairs gives whole pairs. */
  lemma AppendPair(effects: seq<InstantEffect>, a: InstantEffect, b: InstantEffect)
    requires a.kind == Add && b.kind == Sub && a.stat != b.stat
    ensures Paired(effects) ==> Paired(effects + [a, b])
  {
    var result := effects + [a, b];
    if Paired(effects) {
      forall i: nat | i < |result| / 2
        ensures GoodPair(result, i)
      {
        if i < |effects| / 2 {
          assert GoodPair(effects, i);
        }
      }
    }
  }

  /**
   * `addIEs`: shuffle the three stats, add an Add effect on the first and
   * a Sub effect on the second.
   */
  method AddIEs(level: int, effects: seq<InstantEffect>, rng: seq<int>) returns (r: Rolled<seq<InstantEffect>>)
    requires EffectLevel(level)
    ensures |r.value| == |effects| + 2 && r.value[..|effects|] == effects
    ensures r.value[|effects|].kind == Add && r.value[|effects| + 1].kind == Sub
    ensures r.value[|effects|].stat != r.value[|effects| + 1].stat
    ensures Paired(effects) ==> Paired(r.value)
    ensures |r.rest| <= |rng|
  {
    var ss := Shuffle(AllStats, rng);
    assert Distinct(AllStats);
    var e1 := GenerateInstantEffect(ss.value[0], Add, level, ss.rest);
    var e2 := GenerateInstantEffect(ss.value[1], Sub, level, e1.rest);
    AppendPair(effects, e1.value, e2.value);
    r := Rolled(effects + [e1.value, e2.value], e2.rest);
  }

  /**
   * `generateDropIE`: one pair of effects, and a second pair when a die
   * below 100 falls under `min(level, 35)`.
   */
  method GenerateDropIE(level: int, rng: seq<int>) returns (r: Rolled<Drop>)
    requires EffectLevel(level)
    ensures r.value.EffectDrop? && Paired(r.value.effects)
    ensures |r.value.effects| == 2 || |r.value.effects| == 4
    ensures level <= 0 ==> |r.value.effects| == 2
    ensures |r.rest| <= |rng|
  {
    var first := AddIEs(level, [], rng);
    var die := Roll(first.rest, 0, 100);
    if die.value < (if level < 35 then level else 35) {
      var second := AddIEs(level, first.value, die.rest);
      r := Rolled(EffectDrop(second.value), second.rest);
    } else {
      r := Rolled(EffectDrop(first.value), die.rest);
    }
  }

  /** What every generated drop satisfies. */
  predicate GeneratedDrop(d: Drop) {
    && (d.WeaponDrop? ==> d.weapon.atk >= 1)
    && (d.ArmorDrop? ==> d.armor.def >= 0)
    && (d.EffectDrop? ==> Paired(d.effects) && (|d.effects| == 2 || |d.effects| == 4))
  }

  lemma GeneratedDropDefined(d: Drop)
    requires GeneratedDrop(d)
    ensures DropDefined(d)
  {
    if d.EffectDrop? {
      PairedDefined(d.effects);
    }
  }

  /** The levels at which every drop generator is defined. */
  predicate DropLevel(level: int, difficulty: int) {
    StatBase(level, difficulty) >= 1 && EffectLevel(level)
  }

  /** From level 0 and difficulty 1 upward, drops can be generated. */
  lemma DropLevelFromZero(level: int, difficulty: int)
    requires level >= 0 && difficulty >= 1000
    ensures DropLevel(level, difficulty)
  {
    StatBaseAtLeastFour(level, difficulty);
  }

  /**
   * `generateRndDrop`: a die below 50 above 21 gives an effect drop;
   * otherwise a second die above 19 gives a weapon, else an armour.
   */
  method GenerateRndDrop(level: int, room: int, difficulty: int, rng: seq<int>) returns (r: Rolled<Drop>)
    requires DropLevel(level, difficulty)
    ensures GeneratedDrop(r.value) && DropDefined(r.value)
    ensures room < 10 && r.value.WeaponDrop? ==> r.value.weapon.strongAgainst == {} && r.value.weapon.weakAgainst == {}
    ensures room < 10 && r.value.ArmorDrop? ==> r.value.armor.elementTypes == {}
    ensures |rng| == 0 || rng[0] % 50 > 21 ==> r.value.EffectDrop?
    ensures |rng| >= 2 && rng[0] % 50 <= 21 ==> !r.value.EffectDrop? && (r.value.WeaponDrop? <==> rng[1] % 50 > 19)
    ensures |r.rest| <= |rng|
  {
    var die := Roll(rng, 0, 50);
    if die.value > 21 {
      r := GenerateDropIE(level, die.rest);
    } else {
      var die2 := Roll(die.rest, 0, 50);
      if die2.value > 19 {
        var w := GenerateWeapon(level, room, difficulty, die2.rest);
        r := Rolled(WeaponDrop(w.value), w.rest);
      } else {
        var a := GenerateArmor(level, room, difficulty, die2.rest);
        r := Rolled(ArmorDrop(a.value), a.rest);
      }
    }
    GeneratedDropDefined(r.value);
  }

  predicate AllGenerated(ds: seq<Option<Drop>>) {
    forall i :: 0 <= i < |ds| && ds[i].Some? ==> GeneratedDrop(ds[i].value)
  }

  lemma AllGeneratedDefined(ds: seq<Option<Drop>>)
    requires AllGenerated(ds)
    ensures AllDropsDefined(ds)
  {
    forall i | 0 <= i < |ds| && ds[i].Some?
      ensures DropDefined(ds[i].value)
    {
      GeneratedDropDefined(ds[i].value);
    }
  }

  /**
   * `generateDrops`: slot 0 always holds a drop; then every slot, slot 0
   * included, gets a further chance, a die below 50 of at most 20, to be
   * (re)filled with a fresh drop. A filled slot is never emptied.
   */
  method GenerateDrops(level: int, room: int, difficulty: int, rng: seq<int>) returns (r: Rolled<ItemDrops>)
    requires DropLevel(level, difficulty)
    ensures Has(r.value, 0)
    ensures AllGenerated(r.value) && AllDropsDefined(r.value)
    ensures |r.rest| <= |rng|
  {
    var first := GenerateRndDrop(level, room, difficulty, rng);
    var ds: ItemDrops := [Some(first.value), None, None];
    var rest := first.rest;
    var i := 0;
    while i < MaxDrops
      invariant 0 <= i <= MaxDrops
      invariant Has(ds, 0) && AllGenerated(ds)
      invariant |rest| <= |rng|
    {
      var die := Roll(rest, 0, 50);
      rest := die.rest;
      if die.value <= 20 {
        var drop := GenerateRndDrop(level, room, difficulty, rest);
        ds := ds[i := Some(drop.value)];
        rest := drop.rest;
      }
      i := i + 1;
    }
    AllGeneratedDefined(ds);
    r := Rolled(ds, rest);
  }
}

=== FILE: names.dfy ===
/**
 * Name generation: the weighted choice `Gen::getR`, the chance loop
 * `Gen::whileChance` and `Gen::generateCreatureName`
 * (include/GGJ2015/main.cpp:264-393). Weights are the game's float
 * weights times ten, so they are whole numbers.
 */
module Names {
  import opened Wrappers
  import opened Stats
  import opened Draws

  /** A candidate text and its weight in tenths. */
  datatype NameGenData = NameGenData(weight: nat, text: string)

  const CreatureNames: seq<NameGenData> := [
    NameGenData(10, "Slime"), NameGenData(10, "Skeleton"), NameGenData(10, "Dragonkin"),
    NameGenData(10, "Giant crab"), NameGenData(8, "Undead"), NameGenData(8, "Zombie"),
    NameGenData(8, "Dragon"), NameGenData(7, "Ghost"), NameGenData(7, "Bloodkin"),
    NameGenData(5, "Vampire")]

  const CreatureModifiers: seq<NameGenData> := [
    NameGenData(10, "Injured"), NameGenData(10, "Diseased"), NameGenData(10, "Enraged"),
    NameGenData(10, "Powerful"), NameGenData(8, "Undead"), NameGenData(8, "Magical"),
    NameGenData(8, "Enchanted"), NameGenData(7, "Phantasm"), NameGenData(7, "Bloodthirsty"),
    NameGenData(5, "Ravaging")]

  /** Sum of the weights of the first `k` candidates. */
  function PrefixWeight(xs: seq<NameGenData>, k: nat): nat
    requires k <= |xs|
  {
    if k == 0 then 0 else PrefixWeight(xs, k - 1) + xs[k - 1].weight
  }

  function TotalWeight(xs: seq<NameGenData>): nat {
    PrefixWeight(xs, |xs|)
  }

  function Texts(xs: seq<NameGenData>): set<string> {
    set k | 0 <= k < |xs| :: xs[k].text
  }

  /**
   * The scan of `getR` from candidate `i`, with `t` the weight summed so
   * far: the first candidate whose running sum exceeds `r`, if any.
   */
  function Scan(xs: seq<NameGenData>, r: int, t: int, i: nat): (k: Option<nat>)
    requires i <= |xs| && t == PrefixWeight(xs, i) && t <= r
    ensures k.Some? ==> i <= k.value < |xs| && PrefixWeight(xs, k.value) <= r < PrefixWeight(xs, k.value + 1)
    ensures k.None? ==> TotalWeight(xs) <= r
    decreases |xs| - i
  {
    if i == |xs| then None
    else if t + xs[i].weight > r then Some(i)
    else Scan(xs, r, t + xs[i].weight, i + 1)
  }

  /**
   * The candidate a draw `r` below the total weight selects: the one whose
   * weight interval `[PrefixWeight(k), PrefixWeight(k+1))` holds `r`.
   */
  function WeightedIndex(xs: seq<NameGenData>, r: int): (k: int)
    requires 0 <= r < TotalWeight(xs)
    ensures 0 <= k < |xs| && PrefixWeight(xs, k) <= r < PrefixWeight(xs, k + 1)
  {
    var found := Scan(xs, r, 0, 0);
    if found.Some? then found.value else assert false; 0
  }

  /**
   * The scan of `getR` always finds a candidate for a draw below the total
   * weight, so the uniform fallback after the scan is never reached.
   */
  lemma ScanAlwaysFinds(xs: seq<NameGenData>, r: int)
    requires 0 <= r < TotalWeight(xs)
    ensures Scan(xs, r, 0, 0).Some?
  {
  }

  /** `Gen::getR`: draw below the total weight and take the weighted candidate. */
  function Pick(xs: seq<NameGenData>, rng: seq<int>): (r: Rolled<string>)
    requires TotalWeight(xs) > 0
    ensures r.value in Texts(xs)
    ensures |rng| > 0 ==> r.value == xs[WeightedIndex(xs, rng[0] % TotalWeight(xs))].text && r.rest == rng[1..]
    ensures |r.rest| <= |rng| && (|rng| > 0 ==> |r.rest| < |rng|)
  {
    var roll := Roll(rng, 0, TotalWeight(xs));
    Rolled(xs[WeightedIndex(xs, roll.value)].text, roll.rest)
  }

  lemma NameTablesWeighted()
    ensures TotalWeight(CreatureNames) == 83 && TotalWeight(CreatureModifiers) == 83
  {
  }

  /** `whileChance` halves its chance after each success, but never below 2. */
  function NextChance(chance: int): int {
    var half := TruncDiv(chance, 2);
    if half < 2 then 2 else half
  }

  /** The chance tested after `k` successes. */
  function ChanceAfter(chance: int, k: nat): int {
    if k == 0 then chance else NextChance(ChanceAfter(chance, k - 1))
  }

  /**
   * From the creature-name start of 25, the chance is 12, 6, 3 and then 2
   * for good; it never falls below 2 after the first success.
   */
  lemma {:induction false} CreatureChanceSettles(k: nat)
    ensures k >= 1 ==> ChanceAfter(25, k) >= 2
    ensures k >= 4 ==> ChanceAfter(25, k) == 2
    ensures k < 4 ==> ChanceAfter(25, k) == [25, 12, 6, 3][k]
  {
    if k > 4 {
      CreatureChanceSettles(k - 1);
    }
  }

  /**
   * `whileChance` with the creature-modifier body: while a die in `[0, 100)`
   * falls below the chance, append a weighted modifier and lower the chance.
   */
  function ModifierChain(chance: int, rng: seq<int>): (r: Rolled<seq<string>>)
    ensures |r.rest| <= |rng|
    ensures forall i :: 0 <= i < |r.value| ==> r.value[i] in Texts(CreatureModifiers)
    ensures chance < 100 ==> |r.value| <= |rng|
    ensures (|rng| == 0 && chance <= 99) || (|rng| >= 1 && rng[0] % 100 >= chance) ==>
              r.value == [] && r.rest == (if |rng| == 0 then [] else rng[1..])
    ensures |rng| >= 1 && rng[0] % 100 < chance ==> |r.value| >= 1
    decreases |rng|, chance
  {
    var die := Roll(rng, 0, 100);
    if die.value < chance then
      NameTablesWeighted();
      var m := Pick(CreatureModifiers, die.rest);
      var tail := ModifierChain(NextChance(chance), m.rest);
      Rolled([m.value] + tail.value, tail.rest)
    else
      Rolled([], die.rest)
  }

  function JoinWords(words: seq<string>): string {
    if |words| == 0 then "" else words[0] + " " + JoinWords(words[1..])
  }

  /** A creature's name: modifiers, each followed by a space, then a creature name. */
  predicate CreatureNameOf(name: string, mods: seq<string>, base: string) {
    && (forall i :: 0 <= i < |mods| ==> mods[i] in Texts(CreatureModifiers))
    && base in Texts(CreatureNames)
    && name == JoinWords(mods) + base
  }

  /** `generateCreatureName`: a chain of modifiers starting at 25%, then a creature name. */
  function CreatureName(rng: seq<int>): (r: Rolled<string>)
    ensures |r.rest| <= |rng|
    ensures exists mods, base :: CreatureNameOf(r.value, mods, base)
  {
    NameTablesWeighted();
    var mods := ModifierChain(25, rng);
    var base := Pick(CreatureNames, mods.rest);
    var name := JoinWords(mods.value) + base.value;
    assert CreatureNameOf(name, mods.value, base.value);
    Rolled(name, base.rest)
  }
}

=== FILE: session.dfy ===
/**
 * The game session: the choice slots and their double buffer, the drop
 * sub-mode, room advancement, restart, sustain and death
 * (include/GGJ2015/main.cpp:760-943, 1163-1320). The session's `float`
 * difficulty is kept in thousandths and its `float` timer in whole frames.
 */
module Session {
  import opened Wrappers
  import opened Stats
  import opened Combat
  import opened Effects
  import opened Drops
  import opened Draws
  import opened Generators

  datatype State = Playing | Dead | Menu

  datatype Mode = Normal | Practice | Hardcore

  /** The four kinds of choice a slot can offer ("Forward", "Fight", "Collect", "Pickup"). */
  datatype Choice =
    | AdvanceChoice
    | CreatureChoice(creature: Creature)
    | ItemDropChoice(drops: ItemDrops)
    | SingleDropChoice(drop: Option<Drop>)

  /** A fixed array of four optional choices. */
  type Slots = s: seq<Option<Choice>> | |s| == MaxChoices witness [None, None, None, None]

  const NoChoices: Slots := [None, None, None, None]

  /**
   * `GameSession`. `currentDrops` is the slot whose item drops are open, the
   * game's pointer into that choice; `None` is the null pointer.
   */
  datatype GameSession = GameSession(
    state: State,
    roomNumber: int,
    player: Creature,
    choices: Slots,
    nextChoices: Slots,
    timer: int,
    difficulty: int,
    difficultyInc: int,
    mode: Mode,
    timerEnabled: bool,
    currentDrops: Option<nat>)

  // ---------------------------------------------------------------- invariant

  predicate ChoiceDefined(c: Choice) {
    && (c.ItemDropChoice? ==> AllDropsDefined(c.drops))
    && (c.SingleDropChoice? && c.drop.Some? ==> DropDefined(c.drop.value))
  }

  predicate SlotsDefined(slots: Slots) {
    forall i :: 0 <= i < MaxChoices && slots[i].Some? ==> ChoiceDefined(slots[i].value)
  }

  /** Slot `i` holds the item-drop choice whose drops are open. */
  predicate DropsOpen(choices: Slots, i: nat) {
    i < MaxChoices && choices[i].Some? && choices[i].value.ItemDropChoice?
  }

  /**
   * What every reachable session satisfies: the room count and difficulty
   * never fall below their starting values, open drops belong to an
   * item-drop choice, replacements are only pending while drops are open,
   * and every stored drop can be applied.
   */
  predicate Valid(s: GameSession) {
    && s.roomNumber >= 0 && s.difficulty >= 1000 && s.difficultyInc >= 0
    && SlotsDefined(s.choices) && SlotsDefined(s.nextChoices)
    && (s.currentDrops.Some? ==> DropsOpen(s.choices, s.currentDrops.value))
    && (s.currentDrops.None? ==> s.nextChoices == NoChoices)
  }

  /** The constructor: the default fields, then `gotoMenu`. The C++ constructor leaves `timer` unset; it is 0 here. */
  function Initial(): (s: GameSession)
    ensures Valid(s) && s.state == Menu && s.roomNumber == 0 && s.difficulty == 1000
    ensures s.choices == NoChoices && s.currentDrops.None?
  {
    GameSession(Menu, 0, Unnamed, NoChoices, NoChoices, 0, 1000, 30, Normal, true, None)
  }

  // ---------------------------------------------------------------- small transitions

  /** `gotoMenu`: only the state changes (open drops stay open). */
  function GotoMenu(s: GameSession): (r: GameSession)
    ensures r.state == Menu && r.(state := s.state) == s
    ensures Valid(s) ==> Valid(r)
  {
    s.(state := Menu)
  }

  /** `die`: only the state changes. */
  function Die(s: GameSession): (r: GameSession)
    ensures r.state == Dead && r.(state := s.state) == s
    ensures Valid(s) ==> Valid(r)
  {
    s.(state := Dead)
  }

  /** `startDrops`: the drops of the item-drop choice in slot `i` are open; nothing else changes. */
  function StartDrops(s: GameSession, i: nat): (r: GameSession)
    ensures r.currentDrops == Some(i) && r.(currentDrops := s.currentDrops) == s
    ensures Valid(s) && DropsOpen(s.choices, i) ==> Valid(r)
  {
    s.(currentDrops := Some(i))
  }

  /**
   * `endDrops`: no drops are open; nothing else changes. Followed by a
   * refresh, as the game always does, it keeps the session invariant.
   */
  function EndDrops(s: GameSession): (r: GameSession)
    ensures r.currentDrops.None? && r.(currentDrops := s.currentDrops) == s
    ensures Valid(s) ==> Valid(RefreshChoices(r))
  {
    s.(currentDrops := None)
  }

  /** `getSecondsToFT` at 60 frames a second: 10 seconds a room, 6 in Hardcore. */
  function TimerFrames(mode: Mode): int {
    if mode == Hardcore then 360 else 600
  }

  /**
   * `resetTimer`: a full room's time, 10 seconds or 6 in Hardcore, so
   * never spent; nothing else changes.
   */
  function ResetTimer(s: GameSession): (r: GameSession)
    ensures r.timer > 0 && r.timer == TimerFrames(s.mode)
    ensures r.(timer := s.timer) == s
    ensures Valid(s) ==> Valid(r)
  {
    s.(timer := TimerFrames(s.mode))
  }

  /** `resetChoiceAt`: queue a replacement for slot `i`; the shown choice stays until the refresh. */
  function ResetChoiceAt(s: GameSession, i: nat, c: Choice): (r: GameSession)
    requires i < MaxChoices
    ensures r.choices == s.choices && r.nextChoices[i] == Some(c)
    ensures forall j :: 0 <= j < MaxChoices && j != i ==> r.nextChoices[j] == s.nextChoices[j]
    ensures r == s.(nextChoices := r.nextChoices)
  {
    s.(nextChoices := s.nextChoices[i := Some(c)])
  }

  /** Each slot shows its pending replacement if there is one. */
  function Install(current: Slots, next: Slots): (r: Slots)
    ensures forall i :: 0 <= i < MaxChoices ==> r[i] == (if next[i].Some? then next[i] else current[i])
  {
    seq(MaxChoices, i requires 0 <= i < MaxChoices => if next[i].Some? then next[i] else current[i])
  }

  /**
   * `refreshChoices`: every slot with a pending replacement shows it, every
   * other slot keeps its choice, and nothing is left pending.
   */
  function RefreshChoices(s: GameSession): (r: GameSession)
    ensures forall i :: 0 <= i < MaxChoices ==>
              r.choices[i] == (if s.nextChoices[i].Some? then s.nextChoices[i] else s.choices[i])
    ensures r.nextChoices == NoChoices
    ensures r.(choices := s.choices, nextChoices := s.nextChoices) == s
  {
    s.(choices := Install(s.choices, s.nextChoices), nextChoices := NoChoices)
  }

  /** With nothing pending a refresh changes nothing; so a second refresh never does. */
  lemma RefreshIdempotent(s: GameSession)
    ensures s.nextChoices == NoChoices ==> RefreshChoices(s) == s
    ensures RefreshChoices(RefreshChoices(s)) == RefreshChoices(s)
  {
    var r := RefreshChoices(RefreshChoices(s));
    assert r.choices == RefreshChoices(s).choices;
    if s.nextChoices == NoChoices {
      assert RefreshChoices(s).choices == s.choices;
    }
  }

  /**
   * The double buffer: a choice queued with `resetChoiceAt` is not shown
   * until the refresh, which shows it in its slot and leaves the other
   * slots as they were.
   */
  lemma ResetThenRefresh(s: GameSession, i: nat, c: Choice)
    requires i < MaxChoices && s.nextChoices == NoChoices
    ensures ResetChoiceAt(s, i, c).choices == s.choices
    ensures RefreshChoices(ResetChoiceAt(s, i, c)).choices == s.choices[i := Some(c)]
  {
    var r := RefreshChoices(ResetChoiceAt(s, i, c));
    assert forall j :: 0 <= j < MaxChoices ==> r.choices[j] == s.choices[i := Some(c)][j];
  }

  /** Refreshing with nothing open restores the invariant a resolved choice may suspend. */
  lemma RefreshRestoresValid(s: GameSession)
    requires s.roomNumber >= 0 && s.difficulty >= 1000 && s.difficultyInc >= 0
    requires SlotsDefined(s.choices) && SlotsDefined(s.nextChoices) && s.currentDrops.None?
    ensures Valid(RefreshChoices(s))
  {
  }

  // ---------------------------------------------------------------- sustain

  /**
   * The hit points `sustain` drains: `1 + room * 1.5 / difficulty`, at most
   * 20, added to a positive `int`, so its fractional part is dropped.
   */
  function SustainHeal(room: int, difficulty: int): (h: int)
    requires room >= 0 && difficulty > 0
    ensures 1 <= h <= 20
  {
    var h := 1 + room * 1500 / difficulty;
    if h > 20 then 20 else h
  }

  /** The heal is between 1 and 20, grows with the room, and at difficulty 1 is one and a half per room plus one. */
  lemma SustainHealBounds(room: int, room': int, difficulty: int)
    requires 0 <= room <= room' && difficulty > 0
    ensures 1 <= SustainHeal(room, difficulty) <= 20
    ensures SustainHeal(room, difficulty) <= SustainHeal(room', difficulty)
    ensures SustainHeal(room, 1000) == (if 1 + room * 3 / 2 > 20 then 20 else 1 + room * 3 / 2)
  {
    DivMonotone(room * 1500, room' * 1500, difficulty);
  }

  lemma DivMonotone(a: int, b: int, d: int)
    requires 0 <= a <= b && d > 0
    ensures a / d <= b / d
  {
    var qa, qb := a / d, b / d;
    if qa > qb {
      MulAtLeast(qa, d, qb + 1, d);
      assert false;
    }
  }

  /** `sustain`: a living player drains `SustainHeal` hit points; a dead one nothing. Nothing else changes. */
  function Sustain(s: GameSession): (r: GameSession)
    requires s.roomNumber >= 0 && s.difficulty > 0
    ensures r == s.(player := r.player)
    ensures SameGear(r.player, s.player)
    ensures r.player.bonusATK == s.player.bonusATK && r.player.bonusDEF == s.player.bonusDEF
    ensures IsDead(s.player) ==> r == s
    ensures !IsDead(s.player) ==> r.player.hps == s.player.hps + SustainHeal(s.roomNumber, s.difficulty)
    ensures !IsDead(s.player) ==> !IsDead(r.player)
  {
    if IsDead(s.player) then s
    else s.(player := s.player.(hps := s.player.hps + SustainHeal(s.roomNumber, s.difficulty)))
  }

  // ---------------------------------------------------------------- generation of choices

  /**
   * `generateChoices` picks 2 choices, 3 after room 10. Its branch for 4
   * choices after room 20 sits behind the room-10 test and is never taken.
   */
  function ChoiceCount(room: int): (n: int)
    ensures n == (if room > 10 then 3 else 2)
  {
    if room > 10 then 3 else if room > 20 then 4 else 2
  }

  /** `(room + difficulty + room / 10) * difficulty` converted to `int`: the level of a room's creature. */
  function CreatureLevel(room: int, difficulty: int): int {
    TruncDiv((room * 1000 + difficulty + TruncDiv(room, 10) * 1000) * difficulty, 1000000)
  }

  lemma CreatureLevelPositive(room: int, difficulty: int)
    requires room >= 0 && difficulty >= 1000
    ensures CreatureLevel(room, difficulty) >= 1
  {
    MulAtLeast(room * 1000 + difficulty + TruncDiv(room, 10) * 1000, difficulty, 1000, 1000);
  }

  /** What every freshly generated choice satisfies. */
  predicate GeneratedChoice(c: Choice) {
    && !c.AdvanceChoice?
    && ChoiceDefined(c)
    && (c.CreatureChoice? ==>
          c.creature.hps >= 5 && c.creature.weapon.atk >= 1
          && c.creature.bonusATK == 0 && c.creature.bonusDEF == 0)
    && (c.ItemDropChoice? ==> Has(c.drops, 0))
    && (c.SingleDropChoice? ==> c.drop.Some?)
  }

  /**
   * One iteration of `generateChoices`: a die in `[0, 100)` above 15 gives
   * a creature (its choice first draws a hover angle only drawing uses);
   * otherwise a second die above 20 gives a single drop, else item drops,
   * whose constructor generates drops that are then generated again.
   */
  method GenerateChoice(room: int, difficulty: int, rng: seq<int>) returns (c: Choice, rest: seq<int>)
    requires room >= 0 && difficulty >= 1000
    ensures GeneratedChoice(c)
    ensures |rng| == 0 || rng[0] % 100 > 15 ==> c.CreatureChoice?
    ensures |rng| >= 2 && rng[0] % 100 <= 15 ==> !c.CreatureChoice? && (c.SingleDropChoice? <==> rng[1] % 100 > 20)
    ensures |rest| <= |rng|
  {
    var die := Roll(rng, 0, 100);
    if die.value > 15 {
      var angle := Roll(die.rest, 0, 1);
      CreatureLevelPositive(room, difficulty);
      var creature := GenerateCreature(CreatureLevel(room, difficulty), room, difficulty, angle.rest);
      c, rest := CreatureChoice(creature.value), creature.rest;
    } else {
      DropLevelFromZero(room, difficulty);
      var die2 := Roll(die.rest, 0, 100);
      if die2.value > 20 {
        var drop := GenerateRndDrop(room, room, difficulty, die2.rest);
        c, rest := SingleDropChoice(Some(drop.value)), drop.rest;
      } else {
        var discarded := GenerateDrops(room, room, difficulty, die2.rest);
        var drops := GenerateDrops(room, room, difficulty, discarded.rest);
        c, rest := ItemDropChoice(drops.value), drops.rest;
      }
    }
  }

  /** The indices of the filled slots. */
  function Filled(slots: Slots): set<nat> {
    set i: nat | i < MaxChoices && slots[i].Some?
  }

  /** A slot position. */
  type SlotIndex = i: nat | i < MaxChoices

  const SlotIndices: seq<SlotIndex> := [0, 1, 2, 3]

  lemma SlotIndicesDistinct()
    ensures Distinct(SlotIndices)
  {
    forall i, j | 0 <= i < j < |SlotIndices|
      ensures SlotIndices[i] != SlotIndices[j]
    {
      assert SlotIndices[i] == i && SlotIndices[j] == j;
    }
  }

  /** `std::shuffle` of the slot indices: a distinct order of all four. */
  method ShuffleSlots(rng: seq<int>) returns (order: seq<SlotIndex>, rest: seq<int>)
    ensures |order| == MaxChoices && Distinct(order)
    ensures |rest| <= |rng|
  {
    var shuffled := Shuffle(SlotIndices, rng);
    SlotIndicesDistinct();
    order, rest := shuffled.value, shuffled.rest;
  }

  /** Filling one more slot adds it to the filled set. */
  lemma FillOne(choices: Slots, idx: SlotIndex, c: Choice)
    ensures Filled(choices[idx := Some(c)]) == Filled(choices) + {idx}
  {
  }

  /** The slots filled at the first `n` positions of an order of slot indices are exactly `n` slots. */
  lemma FilledCount(choices: Slots, order: seq<SlotIndex>, n: nat)
    requires n <= |order| && Distinct(order)
    requires forall k :: 0 <= k < MaxChoices ==> (choices[k].Some? <==> k in FirstOf(order, n))
    ensures |Filled(choices)| == n
  {
    assert Filled(choices) == FirstOf(order, n);
    FirstOfCount(order, n);
  }

  /**
   * `generateChoices`: clear every slot, shuffle the slot indices and fill
   * the first `ChoiceCount(room)` of them, so exactly that many distinct
   * slots are filled, never with an advance choice.
   */
  method GenerateChoices(room: int, difficulty: int, rng: seq<int>) returns (choices: Slots, rest: seq<int>)
    requires room >= 0 && difficulty >= 1000
    ensures |Filled(choices)| == ChoiceCount(room)
    ensures forall i :: 0 <= i < MaxChoices && choices[i].Some? ==> GeneratedChoice(choices[i].value)
    ensures |rest| <= |rng|
  {
    var order;
    order, rest := ShuffleSlots(rng);
    var n := ChoiceCount(room);
    choices := NoChoices;
    assert Filled(choices) == {};
    var i := 0;
    while i < n
      invariant 0 <= i <= n
      invariant Filled(choices) == FirstOf(order, i)
      invariant forall k :: 0 <= k < MaxChoices && choices[k].Some? ==> GeneratedChoice(choices[k].value)
      invariant |rest| <= |rng|
    {
      var c;
      c, rest := GenerateChoice(room, difficulty, rest);
      FillOne(choices, order[i], c);
      assert FirstOf(order, i + 1) == FirstOf(order, i) + {order[i]};
      choices := choices[order[i] := Some(c)];
      i := i + 1;
    }
    FirstOfCount(order, n);
  }

  // ---------------------------------------------------------------- advance, restart

  /**
   * `advance`: the next room; every fifth room raises the difficulty by the
   * increment. Then fresh choices, a full timer and no open drops; the
   * player, the pending buffer and the state are untouched.
   */
  method Advance(s: GameSession, rng: seq<int>) returns (r: GameSession, rest: seq<int>)
    requires s.roomNumber >= 0 && s.difficulty >= 1000 && s.difficultyInc >= 0
    ensures r.roomNumber == s.roomNumber + 1
    ensures r.difficulty == s.difficulty + (if r.roomNumber % 5 == 0 then s.difficultyInc else 0)
    ensures r == s.(roomNumber := r.roomNumber, difficulty := r.difficulty, choices := r.choices,
                    timer := TimerFrames(s.mode), currentDrops := None)
    ensures |Filled(r.choices)| == ChoiceCount(r.roomNumber)
    ensures forall i :: 0 <= i < MaxChoices && r.choices[i].Some? ==> GeneratedChoice(r.choices[i].value)
    ensures |rest| <= |rng|
  {
    var room := s.roomNumber + 1;
    var difficulty := if room % 5 == 0 then s.difficulty + s.difficultyInc else s.difficulty;
    var choices;
    choices, rest := GenerateChoices(room, difficulty, rng);
    r := EndDrops(ResetTimer(s.(roomNumber := room, difficulty := difficulty, choices := choices)));
  }

  /** The player `restart` builds. */
  const StartingPlayer: Creature :=
    Creature("Player", Weapon("Starting weapon", {}, {}, 5, Mace), Armor("Starting armor", {}, 2), 150, 1, 1)

  /** The difficulty increment of each mode: 0.038, or 0.087 in Hardcore. */
  function IncrementFor(mode: Mode): int {
    if mode == Hardcore then 87 else 38
  }

  /** A session just started in `mode`: room 1, the starting player, two fresh choices. */
  predicate Started(r: GameSession, mode: Mode) {
    && r.state == Playing && r.mode == mode && r.roomNumber == 1
    && r.player == StartingPlayer
    && r.difficulty == 1000 && r.difficultyInc == IncrementFor(mode)
    && r.timerEnabled == (mode != Practice) && r.timer == TimerFrames(mode)
    && r.currentDrops.None? && r.nextChoices == NoChoices
    && |Filled(r.choices)| == 2
  }

  /** `restart`: reset difficulty, timer switch, room, slots and player, then advance. */
  method Restart(s: GameSession, rng: seq<int>) returns (r: GameSession, rest: seq<int>)
    ensures Started(r, s.mode) && Valid(r)
    ensures |rest| <= |rng|
  {
    var reset := s.(difficulty := 1000, difficultyInc := IncrementFor(s.mode),
                    timerEnabled := s.mode != Practice, state := Playing, roomNumber := 0,
                    choices := NoChoices, nextChoices := NoChoices, player := StartingPlayer);
    r, rest := Advance(reset, rng);
  }

  // ---------------------------------------------------------------- resolving a choice

  /** The drops of the open item-drop choice. */
  function OpenDrops(s: GameSession): ItemDrops
    requires s.currentDrops.Some? && DropsOpen(s.choices, s.currentDrops.value)
  {
    s.choices[s.currentDrops.value].value.drops
  }

  /**
   * `tryPickupDrop` on the open drops: an empty slot changes nothing; a
   * full one is applied to the player and emptied, inside the open choice.
   */
  function TryPickupDrop(s: GameSession, k: nat): (r: GameSession)
    requires Valid(s) && s.currentDrops.Some? && k < MaxDrops
    ensures Valid(r) && r.currentDrops == s.currentDrops
    ensures !Has(OpenDrops(r), k)
    ensures forall j :: 0 <= j < MaxDrops && j != k ==> OpenDrops(r)[j] == OpenDrops(s)[j]
    ensures !Has(OpenDrops(s), k) ==> r == s
    ensures Has(OpenDrops(s), k) ==> r.player == ApplyDrop(OpenDrops(s)[k].value, s.player, s.roomNumber, s.difficulty)
    ensures r == s.(player := r.player, choices := r.choices)
    ensures forall i :: 0 <= i < MaxChoices && i != s.currentDrops.value ==> r.choices[i] == s.choices[i]
  {
    var i := s.currentDrops.value;
    var p := TryPickup(OpenDrops(s), k, s.player, s.roomNumber, s.difficulty);
    if !Has(OpenDrops(s), k) then s
    else s.(player := p.1, choices := s.choices[i := Some(ItemDropChoice(p.0))])
  }

  /** Each drop of the open choice is taken at most once. */
  lemma PickupDropOnce(s: GameSession, k: nat)
    requires Valid(s) && s.currentDrops.Some? && k < MaxDrops
    ensures TryPickupDrop(TryPickupDrop(s, k), k) == TryPickupDrop(s, k)
  {
  }

  /**
   * `ChoiceCreature::execute` once the player can damage the creature: they
   * fight, the fought creature stays in the slot until the refresh, the
   * player sustains, and the slot queues item drops of the room's level.
   */
  method FightAt(s: GameSession, slot: nat, creature: Creature, rng: seq<int>) returns (r: GameSession, rest: seq<int>)
    requires Valid(s) && slot < MaxChoices && CanDamage(s.player, creature)
    ensures var fought := Fight(s.player, creature);
            && r.player == Sustain(s.(player := fought.attacker)).player
            && r.choices == s.choices[slot := Some(CreatureChoice(fought.defender))]
            && r.nextChoices[slot].Some? && r.nextChoices[slot].value.ItemDropChoice?
            && Has(r.nextChoices[slot].value.drops, 0)
            && (forall j :: 0 <= j < MaxChoices && j != slot ==> r.nextChoices[j] == s.nextChoices[j])
            && r == s.(player := r.player, choices := r.choices, nextChoices := r.nextChoices)
    ensures SlotsDefined(r.nextChoices)
    ensures |rest| <= |rng|
  {
    var fought := Fight(s.player, creature);
    var sustained := Sustain(s.(player := fought.attacker, choices := s.choices[slot := Some(CreatureChoice(fought.defender))]));
    DropLevelFromZero(s.roomNumber, s.difficulty);
    var drops := GenerateDrops(s.roomNumber, s.roomNumber, s.difficulty, rng);
    r, rest := ResetChoiceAt(sustained, slot, ItemDropChoice(drops.value)), drops.rest;
  }

  /**
   * The `execute` of the choice in `slot`, before any refresh. A creature
   * the player cannot damage is refused; otherwise they fight, the player
   * sustains and the slot queues item drops. Collecting opens the slot's
   * drops; a single drop is applied. The last three queue an advance
   * choice (item drops queue drops instead).
   */
  method Execute(s: GameSession, slot: nat, rng: seq<int>) returns (r: GameSession, rest: seq<int>)
    requires Valid(s) && s.state == Playing && s.currentDrops.None? && slot < MaxChoices && s.choices[slot].Some?
    ensures r.state == s.state && r.mode == s.mode && r.timerEnabled == s.timerEnabled
    ensures r.roomNumber >= 0 && r.difficulty >= 1000 && r.difficultyInc >= 0
    ensures SlotsDefined(r.choices) && SlotsDefined(r.nextChoices)
    ensures r.currentDrops.Some? ==> Valid(r)
    ensures |rest| <= |rng|
    ensures s.choices[slot].value.AdvanceChoice? ==>
              && r.roomNumber == s.roomNumber + 1 && r.player == s.player && r.currentDrops.None?
              && r.nextChoices == NoChoices && |Filled(r.choices)| == ChoiceCount(r.roomNumber)
              && r.timer == TimerFrames(s.mode)
              && r.difficulty == s.difficulty + (if r.roomNumber % 5 == 0 then s.difficultyInc else 0)
    ensures s.choices[slot].value.CreatureChoice? && !CanDamage(s.player, s.choices[slot].value.creature) ==>
              r == s && rest == rng
    ensures s.choices[slot].value.CreatureChoice? && CanDamage(s.player, s.choices[slot].value.creature) ==>
              var fought := Fight(s.player, s.choices[slot].value.creature);
              && r.player == Sustain(s.(player := fought.attacker)).player
              && r.choices == s.choices[slot := Some(CreatureChoice(fought.defender))]
              && r.nextChoices[slot].Some? && r.nextChoices[slot].value.ItemDropChoice?
              && Has(r.nextChoices[slot].value.drops, 0)
              && (forall j :: 0 <= j < MaxChoices && j != slot ==> r.nextChoices[j] == s.nextChoices[j])
              && r == s.(player := r.player, choices := r.choices, nextChoices := r.nextChoices)
    ensures s.choices[slot].value.ItemDropChoice? ==>
              r == ResetChoiceAt(StartDrops(s, slot), slot, AdvanceChoice) && rest == rng
    ensures s.choices[slot] == Some(SingleDropChoice(None)) ==> r == s && rest == rng
    ensures s.choices[slot].value.SingleDropChoice? && s.choices[slot].value.drop.Some? ==>
              r == ResetChoiceAt(s.(player := ApplyDrop(s.choices[slot].value.drop.value, s.player, s.roomNumber, s.difficulty)),
                                 slot, AdvanceChoice)
              && rest == rng
  {
    match s.choices[slot].value
    case AdvanceChoice =>
      r, rest := Advance(s, rng);
    case CreatureChoice(creature) =>
      if CanDamage(s.player, creature) {
        r, rest := FightAt(s, slot, creature, rng);
      } else {
        r, rest := s, rng;
      }
    case ItemDropChoice(_) =>
      r, rest := ResetChoiceAt(StartDrops(s, slot), slot, AdvanceChoice), rng;
    case SingleDropChoice(drop) =>
      if drop.None? {
        r, rest := s, rng;
      } else {
        var player := ApplyDrop(drop.value, s.player, s.roomNumber, s.difficulty);
        r, rest := ResetChoiceAt(s.(player := player), slot, AdvanceChoice), rng;
      }
  }
}

=== FILE: stats.dfy ===
/**
 * Stat and element model: the value types every other module works on
 * (`Weapon`, `Armor`, `Creature` in include/GGJ2015/main.cpp), the game's
 * fixed constants, and the C++ conversions the model needs spelled out.
 */
module Stats {

  /** Number of elements (Fire, Water, Earth, Lightning). */
  const ElementCount: nat := 4
  /** Number of choice slots per room. */
  const MaxChoices: nat := 4
  /** Number of slots in a collection of item drops. */
  const MaxDrops: nat := 3

  /** An element index: 0 Fire, 1 Water, 2 Earth, 3 Lightning. */
  type Element = e: nat | e < ElementCount

  /** A 4-bit `std::bitset`, as the set of its raised bits. */
  type ElementSet = set<Element>

  datatype WeaponType = Mace | Sword | Spear

  datatype Weapon = Weapon(
    name: string,
    strongAgainst: ElementSet,
    weakAgainst: ElementSet,
    atk: int,
    kind: WeaponType)

  datatype Armor = Armor(name: string, elementTypes: ElementSet, def: int)

  datatype Creature = Creature(
    name: string,
    weapon: Weapon,
    armor: Armor,
    hps: int,
    bonusATK: int,
    bonusDEF: int)

  /** Default-constructed equipment and creature. */
  const Unarmed: Weapon := Weapon("Unarmed", {}, {}, -1, Mace)
  const Unarmored: Armor := Armor("Unarmored", {}, -1)
  const Unnamed: Creature := Creature("Unnamed", Unarmed, Unarmored, -1, 0, 0)

  /** `isDead`: a creature falls once its hit points reach 0. */
  predicate IsDead(c: Creature) {
    c.hps <= 0
  }

  /** The base equipment and name of a creature, everything a fight or a burn must not touch. */
  predicate SameGear(c: Creature, c': Creature) {
    c.name == c'.name && c.weapon == c'.weapon && c.armor == c'.armor
  }

  /**
   * Division rounding toward zero: C++ integer `/`, and the conversion
   * of a float quotient back to `int`.
   */
  function TruncDiv(a: int, b: int): (q: int)
    requires b > 0
    ensures a >= 0 ==> 0 <= a - q * b < b
    ensures a < 0 ==> -b < a - q * b <= 0
    ensures a >= 0 ==> q == a / b
    ensures a < 0 ==> q == -((-a) / b) && q <= 0
  {
    if a >= 0 then a / b else -((-a) / b)
  }

  /**
   * `n` is what C++ makes of the value `x / 1000` when it converts it to
   * `int`: the quotient rounded toward zero.
   */
  predicate TruncatesTo(x: int, n: int) {
    && (x >= 0 ==> n * 1000 <= x < n * 1000 + 1000)
    && (x < 0 ==> n * 1000 - 1000 < x <= n * 1000)
  }

  lemma TruncDivThousand(x: int)
    ensures TruncatesTo(x, TruncDiv(x, 1000))
  {
  }
}

=== FILE: wrappers.dfy ===
/** Optional values: a slot that may be empty (the game's null `UPtr`s and pointers). */
module Wrappers {

  datatype Option<+T> = None | Some(value: T)
}
